=== FILE: README.md ===
# School-monitoring admin API: a Dafny model of its core

The system is a small REST API behind a school-monitoring dashboard. It
authenticates administrators with bearer tokens. It stores cameras,
classrooms, students, teachers and behaviour events in a document database.
It answers a few read-side aggregations over them. This project models the
logic left once the database is replaced by in-memory collections:

- **Sessions** (`session.dfy`). Validating the `Authorization` header, logging
  in and logging out, over a store of admin documents and a token map.
- **Name search** (`search.dfy`). Python's whitespace `split()`, the one-word
  OR rule and the several-words AND rule, the exact classroom filter, and the
  cursor limit of 50.
- **Reports** (`reports.dfy`). The student report and the teacher performance
  report: id checks, event selection by string foreign key, total, per-type
  breakdown with the `"unknown"` default, and the mean of the present scores.
- **Dashboard** (`dashboard.dfy`). Collection counts, active cameras, and the
  mean score per event type.
- **Cameras and classrooms** (`facilities.dfy`). Camera delete turns a malformed
  id into "0 deleted". Timetable update turns it into 400 and otherwise sets
  only `timetable` and `updated_at`.
- **Record shapes** (`schemas.dfy`). The record types, the defaults filled in
  for omitted fields, and the score range `0 <= score <= 1`.
- **Supporting modules.** `base.dfy` holds the outcome types and the sequence
  queries that stand in for `find_one`, `find` and `limit`. `ids.dfy` parses
  ids. `store.dfy` holds the collections.

Each collection is a sequence in storage order, so `find_one` is "the first
match" (an order the program does not promise; see "Left out"). Tokens are a map, because the token field has a unique index
(main.py:57). The SHA-256 password digest is a function parameter `hash`. The
random login token (`uuid4().hex`) is a parameter `issued`. A value that is
already stored breaks the unique index, so that login fails with 500. Clocks
are a `now` parameter. Scores are `real`.

Identifiers follow bson's `ObjectId(text)` rule: exactly 24 hex digits, in
either case. A key is represented by its lower-case text. Reports look events
up by the raw path string, not by the parsed key. So an upper-case id finds the
student but matches only events stored with that same upper-case string.

Some consequences of the code, each stated by a member below:

- Logout is guarded by `get_current_admin` (main.py:105). A second logout with
  a revoked token is therefore 401 (`Session.LogoutRevokes`).
- Login does not look at `is_active` (main.py:92-101), so an inactive admin
  can still log in.
- A non-empty `name` made only of whitespace gives an empty `split()`
  (main.py:231). Then `parts[0]` raises and the request fails with 500
  (`Search.NameFilterOf`).
- Login stores the token before it builds the response (main.py:96-101). An
  admin stored with a null `name` gets 500, and the token it was issued still
  authenticates (`Session.NullNameLeavesToken`).

## Model

| member | source | states |
|---|---|---|
| `Base.FindLimited` | main.py:239 | the result is the first 50 matches in storage order: never more than 50, each one a stored match, and every match is present when fewer than 50 came back |
| `Ids.ParseObjectId` | main.py:178-184 | parsing succeeds exactly for 24 hex digits, and the key it yields is canonical |
| `Ids.ParseFormat` | main.py:165 | the `_id` text handed to clients parses back to the same key |
| `Schemas.ValidateEvent` | schemas.py:50-56 | an event is accepted iff `event_type` is given and any score lies in [0,1]; optional ids and notes default to null; an accepted event conforms to the schema |
| `Schemas.ValidateConforming` | schemas.py:50-56 | every conforming event is accepted unchanged when its fields are sent |
| `Schemas.MakeNotification` | schemas.py:58-61 | `level` defaults to "info" and any given string is kept, with no check against info/warning/critical |
| `Schemas.SchemaDefaults` | schemas.py:19-48 | omitted `is_active` is true for admins and cameras, an omitted timetable is the empty map, and roll number and subject default to null |
| `Store.FindById` | main.py:82 | the lookup returns a stored document with that id, and none only when no document has it |
| `Session.BearerToken` | main.py:76-78 | a token is read iff the header starts with the case-sensitive "Bearer ", and the header is that prefix followed by the token |
| `Session.BearerTokenOf` | main.py:76-78 | the header "Bearer " + t carries exactly the token t |
| `Session.Validate` | main.py:75-85 | an admin is returned iff the header carries a stored token whose admin id resolves; it is that admin; every other case is 401 |
| `Session.AdminByEmail` | main.py:31-34 | the lookup returns an admin with that email, and none only when no admin has it |
| `Session.Login` | main.py:88-101 | a response iff the admin found by email has digest hash(password), the new token is unused and the stored name is not null; 401 on bad credentials, 500 otherwise; the token is stored, bound to the admin's id, exactly when credentials match and it is unused, even when the response then fails, and nothing else changes; the name is "Admin" when missing and the stored one otherwise; the echoed email is the one looked up |
| `Session.NameOrDefault` | main.py:101 | `admin.get("name", "Admin")`: "Admin" when the field is missing, the stored value, null included, otherwise |
| `Session.Logout` | main.py:104-110 | success iff the header authenticates; exactly its token is removed and nothing else changes; otherwise 401 |
| `Session.ValidateUnderInvariant` | main.py:79-84 | when every token resolves, a header authenticates iff its token is stored |
| `Session.LoginPreservesInvariant` | main.py:95-100 | every login, whatever its response, keeps "every token resolves to an admin" |
| `Session.LogoutPreservesInvariant` | main.py:105-109 | logout keeps "every token resolves to an admin" |
| `Session.LoginThenValidate` | main.py:75-101 | the issued token authenticates the admin it was issued to |
| `Session.LogoutRevokes` | main.py:75-110 | after logout the same header is 401, and so is a second logout |
| `Session.LogoutLeavesOthers` | main.py:106-109 | logout does not change the outcome of any header that carries another token |
| `Session.LoginLogoutRoundTrip` | main.py:88-110 | logging out the token a login just issued restores the previous store |
| `Session.NullNameLeavesToken` | main.py:96-101 | an admin stored with a null name gets 500 from login, yet the issued token authenticates |
| `Session.CreatedAdminLogsIn` | main.py:88-101 | an `Admin` record (schemas.py:19-23) stored first under its email logs in, with the right password and a fresh token: every schema-valid admin has a name, so it never takes the null-name 500, and the response echoes its own name and email |
| `Search.Split` | main.py:231 | the parts are non-empty and contain no whitespace, and there are none iff the name is all whitespace |
| `Search.SplitContents` | main.py:231 | the parts, concatenated, are the name with its whitespace removed, and there is one part per word start |
| `Search.SplitJoin` | main.py:231 | splitting words joined by single spaces gives the words back |
| `Search.Separators` | main.py:231 | for every name there are whitespace separators, non-empty between words, that weave with the parts back into the name |
| `Search.SplitUnique` | main.py:231 | any words that weave with whitespace separators, non-empty between words, into the name are exactly its parts, so the cut points are fixed |
| `Search.SplitCharacterized` | main.py:231 | a sequence is the split of a name iff it consists of words and weaves with whitespace separators into the name: the documented rule of `str.split()` |
| `Search.NameFilterOf` | main.py:230-236 | no name or an empty one adds no condition; a non-empty all-whitespace name fails with 500 |
| `Search.StudentQueryOf` | main.py:229-238 | the classroom condition is present iff a non-empty `classroom_id` was given, and it is that id |
| `Search.SearchStudents` | main.py:227-242 | 500 iff the name is non-empty whitespace; otherwise the first 50 stored students that match, in storage order |
| `Search.ListTeachers` | main.py:245-258 | the same rules for teachers, without a classroom condition |
| `Search.ContainsIgnoringCase` | main.py:233 | the empty word is in every field, a word longer than the field is in none, every exact occurrence counts, and a field equal to the word up to case contains it |
| `Search.NameMatches` | main.py:232-236 | no name matches everyone; one word matches a person whose first or last name is that word up to case; several words match a person whose first and last names are the first and last words up to case |
| `Search.OneWordRule` | main.py:232-233 | with one word, a person matches iff the first or the last name contains it, ignoring case |
| `Search.SeveralWordsRule` | main.py:234-236 | with several words, a person matches iff the first name contains the first word and the last name the last word |
| `Search.MiddleWordsIgnored` | main.py:234-236 | names that agree on their first and last words build the same filter |
| `Search.ClassroomIsExact` | main.py:237-238 | the classroom filter is exact equality, conjoined with the name rule |
| `Search.TwoWordsExample` | main.py:234-236 | a name of two words, such as "John Smith", builds the AND filter: first word in the first name, second word in the last name |
| `Search.OneWordExample` | main.py:232-233 | a single word, such as "John", builds the OR filter over first and last name |
| `Search.CaseOfWordIrrelevant` | main.py:233 | words that agree after lower-casing select the same records, so "John" and "john" search alike |
| `Reports.Breakdown` | main.py:278-281 | a type is a key iff some event has that label, and its count is the number of such events |
| `Reports.BreakdownOfNothing` | main.py:278-281 | no events give an empty breakdown |
| `Reports.BreakdownTotal` | main.py:278-281 | the breakdown counts add up to the number of events |
| `Reports.ScoreCount` | main.py:276 | the present scores are no more than the events, and there are none iff every score is null |
| `Reports.ScoreSumBounds` | main.py:276-277 | with scores in [0,1], their sum lies between 0 and their number |
| `Reports.Average` | main.py:274-277 | the average is null iff no event has a score (including no events); otherwise it times the number of present scores is their sum |
| `Reports.AverageInUnitInterval` | main.py:274-277 | with every score in [0,1], the average lies in [0,1] |
| `Reports.Summarize` | main.py:273-283 | the total is the number of selected events, the average is null iff none has a score, and the breakdown counts each label |
| `Reports.EventsKeyedBy` | main.py:271 | the selected events are exactly the stored events whose foreign-key string equals the path id, each as often as it is stored, one per matching position |
| `Reports.ReportFor` | main.py:261-283 | 400 iff the id is malformed, 404 iff it is well formed and no person has it, and otherwise the summary of exactly the events keyed by the raw id, about the person with that id |
| `Reports.StudentReport` | main.py:261-283 | the student report: 400 or 404 as above; its events are those whose `student_id` equals the path id, with their stored multiplicity, and `totalEvents` is their number (as computed; as sent, see `Reports.SentReport`) |
| `Reports.TeacherPerformance` | main.py:286-307 | the teacher report: 400 or 404 as above; its events are those whose `teacher_id` equals the path id, with their stored multiplicity, and `totalEvents` is their number (as computed; as sent, see `Reports.SentReport`) |
| `Reports.ReportErrorsIgnoreEvents` | main.py:264-271 | whether a report fails, and with what, does not depend on the events |
| `Reports.ReportMetrics` | main.py:271-281 | in every report the breakdown counts sum to the total; a report over no events has an empty breakdown and a null average |
| `Reports.ReportAverageBounded` | main.py:274-277 | when the selected events' scores respect the schema, a report's average, if any, lies in [0,1] |
| `Reports.ThreeEventExample` | main.py:273-281 | scores 0.2, null and 0.6 average to 0.4, and the types count as engagement 2, distraction 1 |
| `Reports.Label` | main.py:280 | the label is the stored `event_type` when present, and "unknown" iff it is missing or is itself "unknown" |
| `Reports.SentReport` | main.py:271-283 | the response as sent: errors as in `ReportFor`, and success iff no event is keyed by the id, because the raw events keep their bson `_id` |
| `Reports.SentReportFailsOnAnyEvent` | main.py:283 | a report with at least one selected event cannot be sent and fails with 500 |
| `Dashboard.ActiveCameras` | main.py:130 | the camera count is the number of stored cameras whose `is_active` is true; it equals the number of cameras iff all are active, and it is zero iff none is |
| `Dashboard.Group` | main.py:134-138 | every group the pipeline emits has at least one present score |
| `Dashboard.GroupCharacterized` | main.py:134-138 | a group exists iff one of its events has a score, and it holds the sum and number of that group's present scores |
| `Dashboard.EngagementSummary` | main.py:134-139 | an event type appears iff one of its events has a score, and its value is the mean of that type's present scores, the same value a report's average takes over those events |
| `Dashboard.SummaryIsGroupAverage` | main.py:134-138 | a type appears in the summary iff one of its events has a score, and its value is the same mean a report takes over that type's events |
| `Dashboard.SummaryBounded` | main.py:134-138 | with every stored score in [0,1], every group mean lies in [0,1] |
| `Dashboard.Stats` | main.py:122-139 | `events_today` counts every stored event, with no date filter; `cameras` is the number of active cameras; the other counts are the collection sizes; the summary is the per-type mean of the present scores |
| `Facilities.CameraIn` | main.py:154-158 | an omitted `is_active` is true, as in the schema |
| `Facilities.ClassroomIn` | main.py:187-190 | an omitted timetable is null, and a given one is kept |
| `Facilities.TimetableDefaultsDiffer` | main.py:190 | the request body leaves an omitted timetable null where the schema gives an empty map |
| `Facilities.DeleteCamera` | main.py:175-184 | a malformed id deletes nothing and reports 0; otherwise the count is 1 iff a camera has that id; only the camera collection changes, and it shrinks by the count |
| `Facilities.DeleteCameraRemovesExactly` | main.py:181 | with unique ids, the remaining cameras are exactly those with other ids, in order |
| `Facilities.SetTimetable` | main.py:214 | the update changes only the timetable and `updated_at`; id, name and grade are kept |
| `Facilities.UpdateTimetable` | main.py:207-215 | 400 iff the id is malformed; otherwise success with only classrooms changed: classrooms with other ids are untouched, only the first one with the id can change, it gets the new timetable and time, and nothing changes when no classroom matched |
| `Facilities.TimetableRoundTrip` | main.py:207-215 | fetching the classroom after the update returns the new timetable verbatim |
| `Facilities.UpdateTimetableIdempotent` | main.py:214 | repeating the same update changes nothing further |

## Findings

| source | as written | input that shows it | evidently intended | confidence | as-written member | corrected member |
|---|---|---|---|---|---|---|
| main.py:271-283, main.py:296-307 | the report returns the raw event documents, whose `_id` is a bson `ObjectId` that the JSON encoder cannot serialize, so a report with any selected event fails with 500 | a stored student with a valid id and one event whose `student_id` is that id | each event's `_id` turned into its string, as the listings do (main.py:146, 165, 197, 241, 257), so the report is returned | medium, not executed | `Reports.SentReport`, `Reports.SentReportFailsOnAnyEvent` | `Reports.ReportFor` |

## Left out

- The web framework: routing, CORS and status-code plumbing. Outcomes are a `Result` over the failure kinds. Every modelled handler other than login and logout runs behind `get_current_admin` (`Session.Validate`), which answers 401 first for a header that does not authenticate; the model of each such handler assumes the request has passed it.
- The database module: its connection, `create_document` and `get_documents` are not part of this model. So the camera, classroom and notification listings and the create endpoints, which pass through to that module, are not modelled. `/me` (main.py:113-115) only projects the email and name of the admin `get_current_admin` returned, so it is not modelled either.
- The unavailable-database paths (`db is None`): login answers 500 (main.py:90-91), and every guarded route answers 401 because its token lookup finds nothing (main.py:79-81), so the dashboard's own 500 (main.py:124-125) is unreachable. The store is always reachable here.
- SHA-256 and `uuid4` are foreign calls, so they become the parameters `hash` and `issued`. Timestamps become `now`.
- bson's `ObjectId` parser is not part of the source. Its documented rule (24 hex digits) stands in for it. Any quirk of `bytes.fromhex` beyond that rule is not modelled.
- `Search.ContainsIgnoringCase`: a `$regex` with option "i" is modelled as ASCII case-insensitive substring containment. This is exact only for words without regex metacharacters and without non-ASCII case pairs. A malformed pattern, which would make the database raise, is not modelled.
- Result order: `find` without a sort (main.py:239, 255) has no defined order, so which 50 records come back when more match is unspecified. The model fixes storage order, so `Base.FindLimited`, `Search.SearchStudents` and `Search.ListTeachers` return the first matches in that order.
- Floating-point rounding: scores and averages are `real`.
- `Reports.Label`: a stored `event_type` that is present but null is treated as missing ("unknown"). In Python `dict.get` would return `None` for it instead.
- Database-side behaviour: the `$group` output order, and queries matching array-valued fields.
- Startup side effects (the default admin, index creation), `/seed`, `/test` and `/`. They hold no logic to verify.
- The `User` and `Product` example schemas. The application does not use them.

=== FILE: base.dfy ===
/** Shared vocabulary: optional values, request outcomes, and the small
    sequence queries (first match, filter, limit) that stand in for the
    document store's `find_one`, `find` and cursor `limit`. */
module Base {

  datatype Option<+T> = None | Some(value: T) {
    /** The value, or `default` when absent (Python's `dict.get(key, default)`). */
    function GetOr(default: T): T {
      match this
      case Some(v) => v
      case None => default
    }
  }

  /** The HTTP failures the API can answer with. */
  datatype Failure =
    | BadRequest     // 400: malformed identifier in the path
    | Unauthorized   // 401: missing or unknown bearer token, bad credentials
    | NotFound       // 404: well-formed identifier, no such record
    | Unprocessable  // 422: request body rejected by schema validation
    | ServerError    // 500: an exception escaped the handler

  datatype Result<+T> = Ok(value: T) | Err(error: Failure)

  /** Index of the first element satisfying `p`, as `find_one` picks the first
      document in storage order. */
  function FirstIndex<T>(xs: seq<T>, p: T -> bool): (r: Option<nat>)
    ensures r.Some? ==> r.value < |xs| && p(xs[r.value])
    ensures r.Some? ==> forall j :: 0 <= j < r.value ==> !p(xs[j])
    ensures r.None? <==> forall j :: 0 <= j < |xs| ==> !p(xs[j])
  {
    if |xs| == 0 then None
    else if p(xs[0]) then Some(0)
    else
      match FirstIndex(xs[1..], p)
      case None => None
      case Some(i) => Some(i + 1)
  }

  /** Two sequences on which `p` agrees position by position have the same
      first match. */
  lemma {:induction false} FirstIndexAgrees<T>(xs: seq<T>, ys: seq<T>, p: T -> bool)
    requires |xs| == |ys|
    requires forall j :: 0 <= j < |xs| ==> p(xs[j]) == p(ys[j])
    ensures FirstIndex(xs, p) == FirstIndex(ys, p)
    decreases |xs|
  {
    if |xs| > 0 && !p(xs[0]) {
      FirstIndexAgrees(xs[1..], ys[1..], p);
    }
  }

  function FindFirst<T>(xs: seq<T>, p: T -> bool): (r: Option<T>)
    ensures r.Some? ==> r.value in xs && p(r.value)
    ensures r.None? <==> forall x :: x in xs ==> !p(x)
  {
    match FirstIndex(xs, p)
    case None => None
    case Some(i) => Some(xs[i])
  }

  /** The elements satisfying `p`, in their original order. Defined on the
      last element so that a left-to-right loop extends it one step at a time. */
  function Filter<T>(xs: seq<T>, p: T -> bool): (r: seq<T>)
    ensures |r| <= |xs|
    ensures forall x :: x in r ==> x in xs && p(x)
    ensures forall x :: x in xs && p(x) ==> x in r
    decreases |xs|
  {
    if |xs| == 0 then []
    else
      var init := xs[..|xs| - 1];
      var last := xs[|xs| - 1];
      assert xs == init + [last];
      Filter(init, p) + (if p(last) then [last] else [])
  }

  lemma {:induction false} FilterAppend<T>(a: seq<T>, b: seq<T>, p: T -> bool)
    ensures Filter(a + b, p) == Filter(a, p) + Filter(b, p)
    decreases |b|
  {
    if |b| == 0 {
      assert a + b == a;
    } else {
      var b' := b[..|b| - 1];
      assert (a + b)[..|a + b| - 1] == a + b';
      FilterAppend(a, b', p);
    }
  }

  /** Filtering keeps everything exactly when every element qualifies. */
  lemma {:induction false} FilterKeepsAll<T>(xs: seq<T>, p: T -> bool)
    ensures |Filter(xs, p)| == |xs| <==> forall x :: x in xs ==> p(x)
    decreases |xs|
  {
    if |xs| > 0 {
      var init := xs[..|xs| - 1];
      FilterKeepsAll(init, p);
      assert xs == init + [xs[|xs| - 1]];
      assert forall x :: x in xs ==> x in init || x == xs[|xs| - 1];
    }
  }

  lemma {:induction false} FilterIdentity<T>(xs: seq<T>, p: T -> bool)
    requires forall x :: x in xs ==> p(x)
    ensures Filter(xs, p) == xs
    decreases |xs|
  {
    if |xs| > 0 {
      var init, last := xs[..|xs| - 1], xs[|xs| - 1];
      assert xs == init + [last];
      assert forall x :: x in init ==> x in xs;
      FilterIdentity(init, p);
      assert last in xs;
      assert Filter(xs, p) == Filter(init, p) + [last];
    }
  }

  /** Filtering out a single rejected element between two kept runs. */
  lemma FilterDropsOne<T>(a: seq<T>, x: T, b: seq<T>, p: T -> bool)
    requires forall y :: y in a ==> p(y)
    requires forall y :: y in b ==> p(y)
    requires !p(x)
    ensures Filter(a + [x] + b, p) == a + b
  {
    var ax := a + [x];
    FilterAppend(ax, b, p);
    assert ax[..|ax| - 1] == a;
    assert Filter(ax, p) == Filter(a, p);
    FilterIdentity(a, p);
    FilterIdentity(b, p);
  }

  /** Filtering keeps nothing exactly when no element qualifies. */
  lemma FilterKeepsNone<T>(xs: seq<T>, p: T -> bool)
    ensures |Filter(xs, p)| == 0 <==> forall x :: x in xs ==> !p(x)
  {
    var r := Filter(xs, p);
    if |r| > 0 {
      assert r[0] in r;
    }
  }

  /** The positions of `xs` whose element satisfies `p`. */
  function IndicesWhere<T>(xs: seq<T>, p: T -> bool): set<int> {
    set i | 0 <= i < |xs| && p(xs[i])
  }

  /** Extending a sequence by one element adds its position when it qualifies. */
  lemma IndicesSnoc<T>(xs: seq<T>, p: T -> bool)
    requires |xs| > 0
    ensures var n := |xs| - 1;
      IndicesWhere(xs, p) == IndicesWhere(xs[..n], p) + (if p(xs[n]) then {n} else {})
    ensures |xs| - 1 !in IndicesWhere(xs[..|xs| - 1], p)
  {
  }

  /** Filtering keeps one element per qualifying position. */
  lemma {:induction false} FilterSize<T>(xs: seq<T>, p: T -> bool)
    ensures |Filter(xs, p)| == |IndicesWhere(xs, p)|
    decreases |xs|
  {
    if |xs| == 0 {
      assert IndicesWhere(xs, p) == {};
    } else {
      var n := |xs| - 1;
      FilterSize(xs[..n], p);
      IndicesSnoc(xs, p);
    }
  }

  /** Filtering keeps every qualifying element as often as it occurs and
      drops every other one. */
  lemma {:induction false} FilterMultiplicity<T>(xs: seq<T>, p: T -> bool, x: T)
    ensures multiset(Filter(xs, p))[x] == if p(x) then multiset(xs)[x] else 0
    decreases |xs|
  {
    if |xs| > 0 {
      var n := |xs| - 1;
      var init := xs[..n];
      FilterMultiplicity(init, p, x);
      assert xs == init + [xs[n]];
      assert multiset(xs) == multiset(init) + multiset{xs[n]};
    }
  }

  /** A sequence is its part before `i`, its element at `i` and its part after. */
  lemma SplitAround<T>(xs: seq<T>, i: nat)
    requires i < |xs|
    ensures xs == xs[..i] + [xs[i]] + xs[i + 1..]
  {
    assert xs[i..] == [xs[i]] + xs[i + 1..];
    assert xs == xs[..i] + xs[i..];
  }

  /** At most `n` elements from the front: a cursor with `.limit(n)` for
      `n > 0` (a cursor reads `limit(0)` as no limit at all). */
  function Take<T>(xs: seq<T>, n: nat): (r: seq<T>)
    ensures |r| <= n && |r| <= |xs|
    ensures r == xs[..|r|]
    ensures |r| < n ==> r == xs
  {
    if |xs| <= n then xs else xs[..n]
  }

  /** The first `limit` elements of `Filter(xs, p)`, computed the way a cursor
      does: scan in order and stop once `limit` matches are in hand. */
  method FindLimited<T>(xs: seq<T>, p: T -> bool, limit: nat) returns (r: seq<T>)
    requires limit > 0
    ensures r == Take(Filter(xs, p), limit)
    ensures |r| <= limit
    ensures forall x :: x in r ==> x in xs && p(x)
    ensures |r| < limit ==> forall x :: x in xs && p(x) ==> x in r
  {
    r := [];
    var i := 0;
    while i < |xs| && |r| < limit
      invariant 0 <= i <= |xs|
      invariant r == Filter(xs[..i], p)
      invariant |r| <= limit
    {
      assert xs[..i + 1][..i] == xs[..i];
      if p(xs[i]) {
        r := r + [xs[i]];
      }
      i := i + 1;
    }
    TakeOfFilterPrefix(xs, p, limit, i);
  }

  /** A prefix of `xs` that is exhausted or already holds `limit` matches
      yields the first `limit` matches of all of `xs`. */
  lemma TakeOfFilterPrefix<T>(xs: seq<T>, p: T -> bool, limit: nat, i: nat)
    requires i <= |xs| && |Filter(xs[..i], p)| <= limit
    requires i == |xs| || |Filter(xs[..i], p)| == limit
    ensures Take(Filter(xs, p), limit) == Filter(xs[..i], p)
  {
    var a, b := Filter(xs[..i], p), Filter(xs[i..], p);
    assert xs == xs[..i] + xs[i..];
    FilterAppend(xs[..i], xs[i..], p);
    if i == |xs| {
      assert xs[i..] == [] && a + b == a;
    } else {
      assert (a + b)[..limit] == a;
    }
  }

  function LowerChar(c: char): char {
    if 'A' <= c <= 'Z' then (c as int + 32) as char else c
  }

  /** ASCII lower-casing; characters outside 'A'..'Z' are kept as they are. */
  function Lower(s: string): (r: string)
    ensures |r| == |s|
    ensures forall i :: 0 <= i < |s| ==> r[i] == LowerChar(s[i])
  {
    seq(|s|, i requires 0 <= i < |s| => LowerChar(s[i]))
  }
}

=== FILE: dashboard.dfy ===
/** The dashboard statistics (main.py:122-139): flat counts over the
    collections and an engagement summary, the mean score per event type
    over the events that have a score. */
module Dashboard {
  import opened Base
  import opened Schemas
  import opened Store
  import opened Reports

  datatype Counts = Counts(classrooms: nat, students: nat, teachers: nat, cameras: nat, eventsToday: nat)

  /** The `engagementSummary`: one mean per group key. The key is the stored
      `event_type`, and events without one form the null group (`None`). */
  datatype DashboardStats = DashboardStats(counts: Counts, engagementSummary: map<Option<string>, real>)

  function IsActive(c: Doc<Camera>): bool {
    c.body.isActive
  }

  /** `count_documents({"is_active": True})`. */
  function ActiveCameras(cameras: seq<Doc<Camera>>): (n: nat)
    ensures n == |set i | 0 <= i < |cameras| && cameras[i].body.isActive|
    ensures n <= |cameras|
    ensures n == |cameras| <==> forall c :: c in cameras ==> c.body.isActive
    ensures n == 0 <==> forall c :: c in cameras ==> !c.body.isActive
  {
    FilterSize(cameras, IsActive);
    assert IndicesWhere(cameras, IsActive) == set i | 0 <= i < |cameras| && cameras[i].body.isActive;
    FilterKeepsAll(cameras, IsActive);
    FilterKeepsNone(cameras, IsActive);
    |Filter(cameras, IsActive)|
  }

  function HasType(k: Option<string>): BehaviorEvent -> bool {
    (e: BehaviorEvent) => e.eventType == k
  }

  /** The events of one group. */
  function OfType(es: seq<BehaviorEvent>, k: Option<string>): seq<BehaviorEvent> {
    Filter(es, HasType(k))
  }

  /** Running sum and count of the scores seen for one group. */
  datatype Acc = Acc(sum: real, count: nat)

  /** The `$match` on a non-null score followed by the `$group` on
      `event_type`, as one pass over the events. */
  function Group(es: seq<BehaviorEvent>): (g: map<Option<string>, Acc>)
    ensures forall k :: k in g ==> g[k].count > 0
    decreases |es|
  {
    if |es| == 0 then map[]
    else
      var g := Group(es[..|es| - 1]);
      var e := es[|es| - 1];
      match e.score
      case None => g
      case Some(s) =>
        var k := e.eventType;
        g[k := if k in g then Acc(g[k].sum + s, g[k].count + 1) else Acc(s, 1)]
  }

  /** What `Group` says about one group: present exactly when one of its
      events has a score, holding the sum and number of those scores. */
  predicate GroupHolds(es: seq<BehaviorEvent>, k: Option<string>) {
    && (k in Group(es) <==> ScoreCount(OfType(es, k)) > 0)
    && (k in Group(es) ==> Group(es)[k] == Acc(ScoreSum(OfType(es, k)), ScoreCount(OfType(es, k))))
  }

  /** The step for a last event of group `k` that carries a score, when the
      group already had scores. */
  lemma GroupScoredStepKnown(es: seq<BehaviorEvent>, k: Option<string>)
    requires |es| > 0 && es[|es| - 1].eventType == k && es[|es| - 1].score.Some?
    requires GroupHolds(es[..|es| - 1], k) && k in Group(es[..|es| - 1])
    ensures GroupHolds(es, k)
  {
    var init := es[..|es| - 1];
    var e := es[|es| - 1];
    var t := OfType(init, k);
    assert Group(init)[k] == Acc(ScoreSum(t), ScoreCount(t));
    assert OfType(es, k) == t + [e];
    ScoreSumAppend(t, e);
    assert Group(es)[k] == Acc(ScoreSum(t) + e.score.value, ScoreCount(t) + 1);
  }

  /** The step for a last event of group `k` that carries a score, when it
      is the group's first scored event. */
  lemma GroupScoredStepFirst(es: seq<BehaviorEvent>, k: Option<string>)
    requires |es| > 0 && es[|es| - 1].eventType == k && es[|es| - 1].score.Some?
    requires GroupHolds(es[..|es| - 1], k) && k !in Group(es[..|es| - 1])
    ensures GroupHolds(es, k)
  {
    var init := es[..|es| - 1];
    var e := es[|es| - 1];
    var t := OfType(init, k);
    assert ScoreCount(t) == 0;
    ScoreSumOfUnscored(t);
    assert OfType(es, k) == t + [e];
    ScoreSumAppend(t, e);
    assert ScoreSum(OfType(es, k)) == e.score.value && ScoreCount(OfType(es, k)) == 1;
    assert Group(es)[k] == Acc(e.score.value, 1);
  }

  /** The step for a last event that is unscored or of another group. */
  lemma GroupOtherStep(es: seq<BehaviorEvent>, k: Option<string>)
    requires |es| > 0 && (es[|es| - 1].eventType != k || es[|es| - 1].score.None?)
    requires GroupHolds(es[..|es| - 1], k)
    ensures GroupHolds(es, k)
  {
    var init := es[..|es| - 1];
    var e := es[|es| - 1];
    if e.eventType == k {
      assert OfType(es, k) == OfType(init, k) + [e];
      ScoreSumAppend(OfType(init, k), e);
      assert Group(es) == Group(init);
    } else {
      assert OfType(es, k) == OfType(init, k);
    }
  }

  /** A group's accumulator holds the sum and the number of the scores of
      exactly that group's events. */
  lemma {:induction false} GroupCharacterized(es: seq<BehaviorEvent>, k: Option<string>)
    ensures k in Group(es) <==> ScoreCount(OfType(es, k)) > 0
    ensures k in Group(es) ==> Group(es)[k] == Acc(ScoreSum(OfType(es, k)), ScoreCount(OfType(es, k)))
    decreases |es|
  {
    if |es| > 0 {
      var init := es[..|es| - 1];
      var e := es[|es| - 1];
      GroupCharacterized(init, k);
      if e.eventType == k && e.score.Some? && k in Group(init) {
        GroupScoredStepKnown(es, k);
      } else if e.eventType == k && e.score.Some? {
        GroupScoredStepFirst(es, k);
      } else {
        GroupOtherStep(es, k);
      }
    }
  }

  /** A group exists exactly when one of its events has a score, and its
      mean is the mean a report takes over that group's events. */
  lemma GroupIsAverage(es: seq<BehaviorEvent>, k: Option<string>)
    ensures k in Group(es) <==> exists e :: e in es && e.eventType == k && e.score.Some?
    ensures k in Group(es) <==> Average(OfType(es, k)).Some?
    ensures k in Group(es) ==> Mean(Group(es)[k].sum, Group(es)[k].count) == Average(OfType(es, k)).value
  {
    GroupCharacterized(es, k);
    var t := OfType(es, k);
    if exists e :: e in es && e.eventType == k && e.score.Some? {
      var e :| e in es && e.eventType == k && e.score.Some?;
      assert e in t;
    }
  }

  lemma GroupAverages(es: seq<BehaviorEvent>)
    ensures forall k :: k in Group(es) <==> exists e :: e in es && e.eventType == k && e.score.Some?
    ensures forall k :: k in Group(es) ==>
      Average(OfType(es, k)).Some? && Mean(Group(es)[k].sum, Group(es)[k].count) == Average(OfType(es, k)).value
  {
    forall k
      ensures k in Group(es) <==> exists e :: e in es && e.eventType == k && e.score.Some?
      ensures k in Group(es) ==>
        Average(OfType(es, k)).Some? && Mean(Group(es)[k].sum, Group(es)[k].count) == Average(OfType(es, k)).value
    {
      GroupIsAverage(es, k);
    }
  }

  /** The `$match`/`$group` result: one entry per event type with a scored
      event, holding the mean of that type's present scores. */
  function EngagementSummary(es: seq<BehaviorEvent>): (s: map<Option<string>, real>)
    ensures forall k :: k in s <==> exists e :: e in es && e.eventType == k && e.score.Some?
    ensures forall k :: k in s ==> Average(OfType(es, k)).Some? && s[k] == Average(OfType(es, k)).value
  {
    GroupAverages(es);
    var g := Group(es);
    map k | k in g :: Mean(g[k].sum, g[k].count)
  }

  /** A group appears exactly when one of its events has a score, and its
      value is the mean of that group's present scores, the same mean a
      report takes. */
  lemma SummaryIsGroupAverage(es: seq<BehaviorEvent>, k: Option<string>)
    ensures k in EngagementSummary(es) <==> exists e :: e in es && e.eventType == k && e.score.Some?
    ensures k in EngagementSummary(es) <==> Average(OfType(es, k)).Some?
    ensures k in EngagementSummary(es) ==> EngagementSummary(es)[k] == Average(OfType(es, k)).value
  {
    GroupIsAverage(es, k);
  }

  /** With every stored score in [0, 1], every group mean lies in [0, 1]. */
  lemma SummaryBounded(es: seq<BehaviorEvent>, k: Option<string>)
    requires forall e :: e in es ==> ScoreInRange(e.score)
    requires k in EngagementSummary(es)
    ensures 0.0 <= EngagementSummary(es)[k] <= 1.0
  {
    SummaryIsGroupAverage(es, k);
    AverageInUnitInterval(OfType(es, k));
  }

  /** `dashboard_stats`. `eventsToday` counts every stored event: there is no
      date filter despite the name. */
  function Stats(db: Db): (r: DashboardStats)
    ensures r.counts.eventsToday == |db.events|
    ensures r.counts.cameras == |set i | 0 <= i < |db.cameras| && db.cameras[i].body.isActive|
    ensures r.counts.cameras == 0 <==> forall c :: c in db.cameras ==> !c.body.isActive
    ensures r.engagementSummary == EngagementSummary(db.events)
    ensures r.counts.classrooms == |db.classrooms| && r.counts.students == |db.students| && r.counts.teachers == |db.teachers|
  {
    DashboardStats(
      Counts(|db.classrooms|, |db.students|, |db.teachers|, ActiveCameras(db.cameras), |db.events|),
      EngagementSummary(db.events))
  }
}

=== FILE: facilities.dfy ===
/** Cameras and classrooms (main.py:154-215): the request bodies with their
    defaults, camera deletion, which swallows a malformed id as "nothing
    deleted", and the timetable update, which rejects it with 400. */
module Facilities {
  import opened Base
  import opened Ids
  import opened Schemas
  import opened Store

  /** The `CameraIn` request body; `is_active` defaults to true. */
  function CameraIn(classroomId: string, name: string, streamUrl: string, isActive: Field<bool>): (c: Camera)
    ensures c.isActive <==> isActive.Omitted? || isActive.value
    ensures c == MakeCamera(classroomId, name, streamUrl, isActive)
  {
    Camera(classroomId, name, streamUrl, isActive.Or(true))
  }

  /** The `ClassroomIn` request body; here an omitted timetable is null. */
  function ClassroomIn(name: string, grade: Field<Option<string>>, timetable: Field<Option<Timetable>>): (c: Classroom)
    ensures timetable.Omitted? ==> c.timetable.None?
    ensures timetable.Given? ==> c.timetable == timetable.value
  {
    Classroom(name, grade.Or(None), timetable.Or(None))
  }

  /** The two classroom shapes disagree on an omitted timetable: the schema
      fills in an empty map, the request body leaves it null. */
  lemma TimetableDefaultsDiffer(name: string)
    ensures ClassroomIn(name, Omitted, Omitted).timetable == None
    ensures MakeClassroom(name, Omitted, Omitted).timetable == Some(map[])
  {
  }

  datatype Deleted = Deleted(deleted: nat, db: Db)

  /** `delete_camera`: a malformed id raises inside the `try` and is reported
      as `{"deleted": 0}`; otherwise `delete_one` removes the first camera
      with that id, if any. */
  function DeleteCamera(db: Db, cameraId: string): (r: Deleted)
    ensures r.deleted <= 1
    ensures !IsValidId(cameraId) ==> r == Deleted(0, db)
    ensures r.deleted == 1 <==> IsValidId(cameraId) && FindById(db.cameras, ParseObjectId(cameraId).value).Some?
    ensures r.deleted == 0 ==> r.db == db
    ensures r.db == db.(cameras := r.db.cameras)
    ensures |r.db.cameras| + r.deleted == |db.cameras|
    ensures forall c :: c in r.db.cameras ==> c in db.cameras
  {
    match ParseObjectId(cameraId)
    case None => Deleted(0, db)
    case Some(oid) =>
      match FirstIndex(db.cameras, IdIs(oid))
      case None => Deleted(0, db)
      case Some(i) =>
        var rest := db.cameras[..i] + db.cameras[i + 1..];
        assert forall c :: c in rest ==> c in db.cameras;
        Deleted(1, db.(cameras := rest))
  }

  function IdIsNot<T>(id: ObjectId): Doc<T> -> bool {
    (d: Doc<T>) => d.id != id
  }

  /** With unique ids, a delete by a well-formed id leaves exactly the cameras
      with other ids, in their original order. */
  lemma DeleteCameraRemovesExactly(db: Db, cameraId: string)
    requires UniqueIds(db.cameras) && IsValidId(cameraId)
    ensures DeleteCamera(db, cameraId).db.cameras == Filter(db.cameras, IdIsNot(ParseObjectId(cameraId).value))
  {
    var oid := ParseObjectId(cameraId).value;
    var cams := db.cameras;
    var after := DeleteCamera(db, cameraId).db.cameras;
    match FirstIndex(cams, IdIs(oid))
    case None =>
      assert after == cams;
      FilterIdentity(cams, IdIsNot(oid));
    case Some(i) =>
      assert after == cams[..i] + cams[i + 1..];
      assert forall j :: 0 <= j < |cams| && j != i ==> cams[j].id != cams[i].id;
      DropUnique(cams, i);
  }

  /** Filtering out the id of document `i` removes exactly that document
      when no other document shares its id. */
  lemma DropUnique<T>(docs: seq<Doc<T>>, i: nat)
    requires i < |docs|
    requires forall j :: 0 <= j < |docs| && j != i ==> docs[j].id != docs[i].id
    ensures Filter(docs, IdIsNot(docs[i].id)) == docs[..i] + docs[i + 1..]
  {
    var p := IdIsNot(docs[i].id);
    var a, b := docs[..i], docs[i + 1..];
    KeptBefore(docs, i);
    KeptAfter(docs, i);
    SplitAround(docs, i);
    FilterDropsOne(a, docs[i], b, p);
  }

  lemma KeptBefore<T>(docs: seq<Doc<T>>, i: nat)
    requires i < |docs|
    requires forall j :: 0 <= j < |docs| && j != i ==> docs[j].id != docs[i].id
    ensures forall c :: c in docs[..i] ==> IdIsNot(docs[i].id)(c)
  {
    forall c | c in docs[..i]
      ensures IdIsNot(docs[i].id)(c)
    {
      var j :| 0 <= j < i && docs[..i][j] == c;
      assert docs[j] == c;
    }
  }

  lemma KeptAfter<T>(docs: seq<Doc<T>>, i: nat)
    requires i < |docs|
    requires forall j :: 0 <= j < |docs| && j != i ==> docs[j].id != docs[i].id
    ensures forall c :: c in docs[i + 1..] ==> IdIsNot(docs[i].id)(c)
  {
    forall c | c in docs[i + 1..]
      ensures IdIsNot(docs[i].id)(c)
    {
      var j :| 0 <= j < |docs| - i - 1 && docs[i + 1..][j] == c;
      assert docs[i + 1 + j] == c;
    }
  }

  /** The classroom document after `$set` of `timetable` and `updated_at`. */
  function SetTimetable(d: Doc<ClassroomDoc>, timetable: Timetable, now: Timestamp): (r: Doc<ClassroomDoc>)
    ensures r.id == d.id && r.body.room.name == d.body.room.name && r.body.room.grade == d.body.room.grade
    ensures r.body.room.timetable == Some(timetable) && r.body.updatedAt == Some(now)
  {
    d.(body := ClassroomDoc(d.body.room.(timetable := Some(timetable)), Some(now)))
  }

  /** `update_timetable`: 400 for a malformed id; otherwise `update_one` sets
      the timetable and `updated_at` of the first classroom with that id and
      the request succeeds whether or not one matched. */
  function UpdateTimetable(db: Db, classroomId: string, timetable: Timetable, now: Timestamp): (r: Result<Db>)
    ensures r.Err? <==> !IsValidId(classroomId)
    ensures r.Err? ==> r.error == BadRequest
    ensures r.Ok? ==> r.value == db.(classrooms := r.value.classrooms)
    ensures r.Ok? ==> |r.value.classrooms| == |db.classrooms|
    ensures r.Ok? ==> forall j :: 0 <= j < |db.classrooms| ==>
      r.value.classrooms[j] == db.classrooms[j] || r.value.classrooms[j] == SetTimetable(db.classrooms[j], timetable, now)
    ensures r.Ok? && FindById(db.classrooms, ParseObjectId(classroomId).value).None? ==> r.value == db
    ensures r.Ok? ==> forall j :: 0 <= j < |db.classrooms| && db.classrooms[j].id != ParseObjectId(classroomId).value ==>
      r.value.classrooms[j] == db.classrooms[j]
    ensures r.Ok? ==> forall j :: 0 <= j < |db.classrooms| && r.value.classrooms[j] != db.classrooms[j] ==>
      FirstIndex(db.classrooms, IdIs(ParseObjectId(classroomId).value)) == Some(j)
    ensures r.Ok? && FirstIndex(db.classrooms, IdIs(ParseObjectId(classroomId).value)).Some? ==>
      var i := FirstIndex(db.classrooms, IdIs(ParseObjectId(classroomId).value)).value;
      r.value.classrooms[i] == SetTimetable(db.classrooms[i], timetable, now)
  {
    match ParseObjectId(classroomId)
    case None => Err(BadRequest)
    case Some(oid) =>
      match FirstIndex(db.classrooms, IdIs(oid))
      case None => Ok(db)
      case Some(i) => Ok(db.(classrooms := db.classrooms[i := SetTimetable(db.classrooms[i], timetable, now)]))
  }

  /** Updating a classroom's timetable and fetching the classroom by the same
      id returns the new timetable verbatim. */
  lemma TimetableRoundTrip(db: Db, classroomId: string, timetable: Timetable, now: Timestamp)
    requires IsValidId(classroomId)
    requires FindById(db.classrooms, ParseObjectId(classroomId).value).Some?
    ensures var d := FindById(UpdateTimetable(db, classroomId, timetable, now).value.classrooms, ParseObjectId(classroomId).value);
      d.Some? && d.value.body.room.timetable == Some(timetable) && d.value.body.updatedAt == Some(now)
  {
    var oid := ParseObjectId(classroomId).value;
    var i := FirstIndex(db.classrooms, IdIs(oid)).value;
    var cs := UpdateTimetable(db, classroomId, timetable, now).value.classrooms;
    assert cs == db.classrooms[i := SetTimetable(db.classrooms[i], timetable, now)];
    FirstIndexAgrees(db.classrooms, cs, IdIs(oid));
  }

  /** Repeating the same update changes nothing further. */
  lemma UpdateTimetableIdempotent(db: Db, classroomId: string, timetable: Timetable, now: Timestamp)
    requires IsValidId(classroomId)
    ensures var once := UpdateTimetable(db, classroomId, timetable, now).value;
      UpdateTimetable(once, classroomId, timetable, now) == Ok(once)
  {
    var oid := ParseObjectId(classroomId).value;
    var once := UpdateTimetable(db, classroomId, timetable, now).value;
    match FirstIndex(db.classrooms, IdIs(oid))
    case None =>
    case Some(i) =>
      var cs := once.classrooms;
      assert cs == db.classrooms[i := SetTimetable(db.classrooms[i], timetable, now)];
      FirstIndexAgrees(db.classrooms, cs, IdIs(oid));
      assert SetTimetable(cs[i], timetable, now) == cs[i];
      assert cs[i := cs[i]] == cs;
  }
}

=== FILE: ids.dfy ===
/** Document identifiers. Path parameters arrive as strings and are turned
    into the store's native key with bson's `ObjectId(text)`, which accepts
    exactly 24 hexadecimal digits in either case and raises otherwise. The
    key is twelve bytes; this model represents it by its canonical text,
    the lower-case hex that `str(ObjectId)` prints. */
module Ids {
  import opened Base

  datatype ObjectId = ObjectId(hex: string)

  predicate IsHexDigit(c: char) {
    '0' <= c <= '9' || 'a' <= c <= 'f' || 'A' <= c <= 'F'
  }

  /** Whether `ObjectId(s)` succeeds. */
  predicate IsValidId(s: string) {
    |s| == 24 && forall i :: 0 <= i < |s| ==> IsHexDigit(s[i])
  }

  /** A key in canonical form: 24 lower-case hex digits. */
  predicate Canonical(o: ObjectId) {
    |o.hex| == 24 && forall i :: 0 <= i < |o.hex| ==> '0' <= o.hex[i] <= '9' || 'a' <= o.hex[i] <= 'f'
  }

  function ParseObjectId(s: string): (r: Option<ObjectId>)
    ensures r.Some? <==> IsValidId(s)
    ensures r.Some? ==> Canonical(r.value)
  {
    if IsValidId(s) then Some(ObjectId(Lower(s))) else None
  }

  /** `str(oid)`: the text clients receive as `_id`. */
  function Format(o: ObjectId): string {
    o.hex
  }

  /** Every identifier a client was handed parses back to the same key. */
  lemma ParseFormat(o: ObjectId)
    requires Canonical(o)
    ensures ParseObjectId(Format(o)) == Some(o)
  {
    assert Lower(o.hex) == o.hex;
  }

  /** Parsing ignores case: two texts name the same key exactly when they
      agree after lower-casing. */
  lemma ParseIgnoresCase(s: string, t: string)
    requires IsValidId(s) && IsValidId(t)
    ensures ParseObjectId(s) == ParseObjectId(t) <==> Lower(s) == Lower(t)
  {
  }
}

=== FILE: reports.dfy ===
/** The student report and teacher performance endpoints (main.py:261-307).
    Both validate the path id, look the person up, select the behaviour
    events whose foreign-key string equals the path id, and summarise them:
    a total, the mean of the present scores, and a count per event type. */
module Reports {
  import opened Base
  import opened Ids
  import opened Schemas
  import opened Store

  /** The breakdown key of an event that has no `event_type`. */
  const UnknownType: string := "unknown"

  /** `e.get("event_type", "unknown")`. */
  function Label(e: BehaviorEvent): (l: string)
    ensures e.eventType.Some? ==> l == e.eventType.value
    ensures l == UnknownType <==> e.eventType.None? || e.eventType == Some(UnknownType)
  {
    e.eventType.GetOr(UnknownType)
  }

  /** How many events carry label `k`: the reference for the breakdown. */
  function Occurrences(es: seq<BehaviorEvent>, k: string): nat
    decreases |es|
  {
    if |es| == 0 then 0
    else Occurrences(es[..|es| - 1], k) + (if Label(es[|es| - 1]) == k then 1 else 0)
  }

  /** `m[k] = m.get(k, 0) + 1`. */
  function Bump(m: map<string, nat>, k: string): map<string, nat> {
    m[k := (if k in m then m[k] else 0) + 1]
  }

  /** The per-type breakdown, built by one left-to-right pass as the loop at
      main.py:279-281 does. */
  function Breakdown(es: seq<BehaviorEvent>): (m: map<string, nat>)
    ensures forall k :: k in m <==> Occurrences(es, k) > 0
    ensures forall k :: k in m ==> m[k] == Occurrences(es, k)
    decreases |es|
  {
    if |es| == 0 then map[]
    else Bump(Breakdown(es[..|es| - 1]), Label(es[|es| - 1]))
  }

  lemma BreakdownOfNothing()
    ensures Breakdown([]) == map[]
  {
  }

  /** Some key of a non-empty map. */
  ghost function AnyKey(m: map<string, nat>): (k: string)
    requires |m| > 0
    ensures k in m
  {
    var k :| k in m; k
  }

  /** Sum of the counts in a breakdown. */
  ghost function SumValues(m: map<string, nat>): nat
    decreases |m|
  {
    if |m| == 0 then 0
    else
      var k := AnyKey(m);
      m[k] + SumValues(m - {k})
  }

  lemma RemoveKeySize(m: map<string, nat>, k: string)
    requires k in m
    ensures |m - {k}| == |m| - 1
  {
    assert (m - {k}).Keys == m.Keys - {k};
  }

  /** The sum does not depend on which key is taken out first. */
  lemma {:induction false} SumValuesRemove(m: map<string, nat>, k: string)
    requires k in m
    ensures SumValues(m) == m[k] + SumValues(m - {k})
    decreases |m|
  {
    var j := AnyKey(m);
    if j != k {
      var mj := m - {j};
      var mk := m - {k};
      RemoveKeySize(m, j);
      RemoveKeySize(m, k);
      assert k in mj && mj[k] == m[k];
      assert j in mk && mk[j] == m[j];
      SumValuesRemove(mj, k);
      SumValuesRemove(mk, j);
      assert mj - {k} == mk - {j};
    }
  }

  lemma SumValuesBump(m: map<string, nat>, k: string)
    ensures SumValues(Bump(m, k)) == SumValues(m) + 1
  {
    var b := Bump(m, k);
    assert k in b && b[k] == (if k in m then m[k] else 0) + 1;
    SumValuesRemove(b, k);
    if k in m {
      SumValuesRemove(m, k);
      BumpRest(m, k);
    } else {
      BumpNew(m, k);
    }
  }

  lemma BumpRest(m: map<string, nat>, k: string)
    ensures Bump(m, k) - {k} == m - {k}
  {
  }

  lemma BumpNew(m: map<string, nat>, k: string)
    requires k !in m
    ensures Bump(m, k) - {k} == m
  {
  }

  /** The breakdown counts add up to the number of events. */
  lemma {:induction false} BreakdownTotal(es: seq<BehaviorEvent>)
    ensures SumValues(Breakdown(es)) == |es|
    decreases |es|
  {
    if |es| > 0 {
      BreakdownTotal(es[..|es| - 1]);
      SumValuesBump(Breakdown(es[..|es| - 1]), Label(es[|es| - 1]));
    }
  }

  /** The sum of the present scores. */
  function ScoreSum(es: seq<BehaviorEvent>): real
    decreases |es|
  {
    if |es| == 0 then 0.0
    else ScoreSum(es[..|es| - 1]) + es[|es| - 1].score.GetOr(0.0)
  }

  /** The number of events whose score is not null. */
  function ScoreCount(es: seq<BehaviorEvent>): (n: nat)
    ensures n <= |es|
    ensures n == 0 <==> forall e :: e in es ==> e.score.None?
    decreases |es|
  {
    if |es| == 0 then 0
    else
      assert es == es[..|es| - 1] + [es[|es| - 1]];
      ScoreCount(es[..|es| - 1]) + (if es[|es| - 1].score.Some? then 1 else 0)
  }

  /** Events without scores contribute nothing to the sum. */
  lemma {:induction false} ScoreSumOfUnscored(es: seq<BehaviorEvent>)
    requires ScoreCount(es) == 0
    ensures ScoreSum(es) == 0.0
    decreases |es|
  {
    if |es| > 0 {
      ScoreSumOfUnscored(es[..|es| - 1]);
    }
  }

  lemma ScoreSumAppend(es: seq<BehaviorEvent>, e: BehaviorEvent)
    ensures ScoreSum(es + [e]) == ScoreSum(es) + e.score.GetOr(0.0)
    ensures ScoreCount(es + [e]) == ScoreCount(es) + (if e.score.Some? then 1 else 0)
  {
    assert (es + [e])[..|es|] == es;
  }

  /** With every score in [0, 1], the sum of the present scores lies
      between 0 and their number. */
  lemma {:induction false} ScoreSumBounds(es: seq<BehaviorEvent>)
    requires forall e :: e in es ==> ScoreInRange(e.score)
    ensures 0.0 <= ScoreSum(es) <= ScoreCount(es) as real
    decreases |es|
  {
    if |es| > 0 {
      var init := es[..|es| - 1];
      assert forall e :: e in init ==> e in es;
      ScoreSumBounds(init);
      assert es[|es| - 1] in es;
    }
  }

  /** `averageScore`: None when no event was found, and None when none of
      them has a score; otherwise the mean of the present scores only. */
  function Average(es: seq<BehaviorEvent>): (r: Option<real>)
    ensures r.None? <==> forall e :: e in es ==> e.score.None?
    ensures r.Some? ==> ScoreCount(es) > 0 && r.value * ScoreCount(es) as real == ScoreSum(es)
  {
    if |es| == 0 then None
    else
      var n := ScoreCount(es);
      if n == 0 then None else Some(Mean(ScoreSum(es), n))
  }

  /** `total / n`: the value whose `n`-fold is `total`; a total between 0 and
      `n` gives a mean in [0, 1]. */
  function Mean(total: real, n: nat): (m: real)
    requires n > 0
    ensures m * n as real == total
    ensures 0.0 <= total <= n as real ==> 0.0 <= m <= 1.0
  {
    total / n as real
  }

  /** The mean of scores in [0, 1] lies in [0, 1]. */
  lemma {:induction false} AverageInUnitInterval(es: seq<BehaviorEvent>)
    requires forall e :: e in es ==> ScoreInRange(e.score)
    requires Average(es).Some?
    ensures 0.0 <= Average(es).value <= 1.0
  {
    ScoreSumBounds(es);
  }

  datatype Report<P> = Report(
    subject: Doc<P>,
    totalEvents: nat,
    averageScore: Option<real>,
    breakdown: map<string, nat>,
    events: seq<BehaviorEvent>)

  /** The metrics of a report over the events selected for it. */
  function Summarize<P>(subject: Doc<P>, events: seq<BehaviorEvent>): (r: Report<P>)
    ensures r.subject == subject && r.events == events && r.totalEvents == |events|
    ensures r.averageScore.None? <==> forall e :: e in events ==> e.score.None?
    ensures forall k :: k in r.breakdown <==> Occurrences(events, k) > 0
    ensures forall k :: k in r.breakdown ==> r.breakdown[k] == Occurrences(events, k)
  {
    Report(subject, |events|, Average(events), Breakdown(events), events)
  }

  /** The events whose foreign key, as a string, equals `id`. */
  function EventsKeyedBy(events: seq<BehaviorEvent>, key: BehaviorEvent -> Option<string>, id: string): (r: seq<BehaviorEvent>)
    ensures forall e :: e in r <==> e in events && key(e) == Some(id)
    ensures forall e :: multiset(r)[e] == if key(e) == Some(id) then multiset(events)[e] else 0
    ensures |r| == |set i | 0 <= i < |events| && key(events[i]) == Some(id)|
  {
    var p := KeyIs(key, id);
    FilterSize(events, p);
    assert IndicesWhere(events, p) == set i | 0 <= i < |events| && key(events[i]) == Some(id);
    forall e
      ensures multiset(Filter(events, p))[e] == if key(e) == Some(id) then multiset(events)[e] else 0
    {
      FilterMultiplicity(events, p, e);
    }
    Filter(events, p)
  }

  function KeyIs(key: BehaviorEvent -> Option<string>, id: string): BehaviorEvent -> bool {
    (e: BehaviorEvent) => key(e) == Some(id)
  }

  /** The shared shape of both report endpoints: 400 for a malformed id and
      404 for a missing person, both decided before any event is read. */
  function ReportFor<P>(people: seq<Doc<P>>, events: seq<BehaviorEvent>, key: BehaviorEvent -> Option<string>, id: string): (r: Result<Report<P>>)
    ensures r == Err(BadRequest) <==> !IsValidId(id)
    ensures r == Err(NotFound) <==> IsValidId(id) && FindById(people, ParseObjectId(id).value).None?
    ensures r.Err? ==> r == Err(BadRequest) || r == Err(NotFound)
    ensures r.Ok? ==> r.value.subject in people && r.value.subject.id == ParseObjectId(id).value
    ensures r.Ok? ==> r.value.events == EventsKeyedBy(events, key, id)
    ensures r.Ok? ==> r.value == Summarize(r.value.subject, r.value.events)
  {
    match ParseObjectId(id)
    case None => Err(BadRequest)
    case Some(oid) =>
      match FindById(people, oid)
      case None => Err(NotFound)
      case Some(p) => Ok(Summarize(p, EventsKeyedBy(events, key, id)))
  }

  function StudentKey(e: BehaviorEvent): Option<string> {
    e.studentId
  }

  function TeacherKey(e: BehaviorEvent): Option<string> {
    e.teacherId
  }

  /** `student_report`. */
  function StudentReport(db: Db, studentId: string): (r: Result<Report<Student>>)
    ensures r == Err(BadRequest) <==> !IsValidId(studentId)
    ensures r == Err(NotFound) <==> IsValidId(studentId) && FindById(db.students, ParseObjectId(studentId).value).None?
    ensures r.Ok? ==> forall e :: e in r.value.events <==> e in db.events && e.studentId == Some(studentId)
    ensures r.Ok? ==> forall e :: multiset(r.value.events)[e] == if e.studentId == Some(studentId) then multiset(db.events)[e] else 0
    ensures r.Ok? ==> r.value.totalEvents == |r.value.events|
  {
    ReportFor(db.students, db.events, StudentKey, studentId)
  }

  /** `teacher_performance`: the same computation keyed by `teacher_id`. */
  function TeacherPerformance(db: Db, teacherId: string): (r: Result<Report<Teacher>>)
    ensures r == Err(BadRequest) <==> !IsValidId(teacherId)
    ensures r == Err(NotFound) <==> IsValidId(teacherId) && FindById(db.teachers, ParseObjectId(teacherId).value).None?
    ensures r.Ok? ==> forall e :: e in r.value.events <==> e in db.events && e.teacherId == Some(teacherId)
    ensures r.Ok? ==> forall e :: multiset(r.value.events)[e] == if e.teacherId == Some(teacherId) then multiset(db.events)[e] else 0
    ensures r.Ok? ==> r.value.totalEvents == |r.value.events|
  {
    ReportFor(db.teachers, db.events, TeacherKey, teacherId)
  }

  /** A report as the handlers actually send it. The matched events are
      returned as read, still carrying their bson `_id`, which the JSON
      response encoder cannot serialise; every other listing turns `_id`
      into a string first. So a report that selects at least one event
      fails with 500, and only an empty selection gets through. */
  function SentReport<P>(people: seq<Doc<P>>, events: seq<BehaviorEvent>, key: BehaviorEvent -> Option<string>, id: string): (r: Result<Report<P>>)
    ensures ReportFor(people, events, key, id).Err? ==> r == ReportFor(people, events, key, id)
    ensures r.Ok? <==> ReportFor(people, events, key, id).Ok? && forall e :: e in events ==> key(e) != Some(id)
    ensures r.Ok? ==> r == ReportFor(people, events, key, id)
    ensures r.Err? && ReportFor(people, events, key, id).Ok? ==> r.error == ServerError
  {
    match ReportFor(people, events, key, id)
    case Err(e) => Err(e)
    case Ok(rep) => if |rep.events| > 0 then Err(ServerError) else Ok(rep)
  }

  /** One stored event for an existing student is enough: the report the
      handler computes is fine, and sending it fails. */
  lemma SentReportFailsOnAnyEvent<P>(people: seq<Doc<P>>, events: seq<BehaviorEvent>, key: BehaviorEvent -> Option<string>, id: string, e: BehaviorEvent)
    requires ReportFor(people, events, key, id).Ok?
    requires e in events && key(e) == Some(id)
    ensures SentReport(people, events, key, id) == Err(ServerError)
    ensures ReportFor(people, events, key, id).value.totalEvents > 0
  {
    assert e in ReportFor(people, events, key, id).value.events;
  }

  /** The outcome class of a report never depends on the events: errors are
      decided by the id and the person collection alone. */
  lemma ReportErrorsIgnoreEvents<P>(people: seq<Doc<P>>, a: seq<BehaviorEvent>, b: seq<BehaviorEvent>, key: BehaviorEvent -> Option<string>, id: string)
    ensures ReportFor(people, a, key, id).Err? <==> ReportFor(people, b, key, id).Err?
    ensures ReportFor(people, a, key, id).Err? ==> ReportFor(people, a, key, id) == ReportFor(people, b, key, id)
  {
  }

  /** What every report promises about its numbers: the breakdown counts add
      up to the total, and a report over no events has an empty breakdown and
      a null average. */
  lemma {:induction false} ReportMetrics<P>(subject: Doc<P>, events: seq<BehaviorEvent>)
    ensures SumValues(Summarize(subject, events).breakdown) == Summarize(subject, events).totalEvents
    ensures |events| == 0 ==> Summarize(subject, events).breakdown == map[] && Summarize(subject, events).averageScore.None?
  {
    BreakdownTotal(events);
  }

  /** When the stored events respect the schema, a report's average lies in [0, 1]. */
  lemma {:induction false} ReportAverageBounded<P>(subject: Doc<P>, events: seq<BehaviorEvent>)
    requires forall e :: e in events ==> ScoreInRange(e.score)
    ensures Summarize(subject, events).averageScore.Some? ==> 0.0 <= Summarize(subject, events).averageScore.value <= 1.0
  {
    if Summarize(subject, events).averageScore.Some? {
      AverageInUnitInterval(events);
    }
  }

  /** Three events, one of them without a score: the total counts all three,
      the average is taken over the two scores, and the breakdown counts by type. */
  lemma ThreeEventExample(e1: BehaviorEvent, e2: BehaviorEvent, e3: BehaviorEvent)
    requires e1.eventType == Some("engagement") && e1.score == Some(0.2)
    requires e2.eventType == Some("engagement") && e2.score == None
    requires e3.eventType == Some("distraction") && e3.score == Some(0.6)
    ensures Average([e1, e2, e3]) == Some(0.4)
    ensures Breakdown([e1, e2, e3]) == map["engagement" := 2, "distraction" := 1]
  {
    var es := [e1, e2, e3];
    assert es[..2] == [e1, e2] && [e1, e2][..1] == [e1] && [e1][..0] == [];
    assert ScoreSum([e1]) == 0.2 && ScoreCount([e1]) == 1;
    assert ScoreSum([e1, e2]) == 0.2 && ScoreCount([e1, e2]) == 1;
    assert ScoreSum(es) == 0.8 && ScoreCount(es) == 2;
    assert Breakdown([e1]) == map["engagement" := 1];
    assert Breakdown([e1, e2]) == map["engagement" := 2];
  }
}

=== FILE: schemas.dfy ===
/** The record shapes of the collections (schemas.py), with the defaults a
    pydantic model fills in for omitted fields and the one value constraint
    it enforces, the score range of a behaviour event. */
module Schemas {
  import opened Base

  /** A day name mapped to its ordered list of period labels. */
  type Timetable = map<string, seq<string>>

  /** A field of a request body: left out, or given (possibly as null). */
  datatype Field<T> = Omitted | Given(value: T) {
    function Or(default: T): T {
      match this
      case Given(v) => v
      case Omitted => default
    }
  }

  datatype Admin = Admin(email: string, name: string, passwordHash: string, isActive: bool)

  datatype Camera = Camera(classroomId: string, name: string, streamUrl: string, isActive: bool)

  datatype Classroom = Classroom(name: string, grade: Option<string>, timetable: Option<Timetable>)

  datatype Student = Student(firstName: string, lastName: string, classroomId: string, rollNumber: Option<string>)

  datatype Teacher = Teacher(firstName: string, lastName: string, subject: Option<string>)

  /** A stored behaviour event. The store does not re-check documents on
      read, so `eventType` may be missing even though the schema requires it. */
  datatype BehaviorEvent = BehaviorEvent(
    studentId: Option<string>,
    teacherId: Option<string>,
    classroomId: Option<string>,
    eventType: Option<string>,
    score: Option<real>,
    notes: Option<string>)

  datatype Notification = Notification(title: string, message: string, level: string)

  /** The constraint `ge=0, le=1` on an optional score. */
  predicate ScoreInRange(score: Option<real>) {
    score.Some? ==> 0.0 <= score.value <= 1.0
  }

  /** An event as the schema admits it: a type is present and the score,
      if any, lies in [0, 1]. */
  predicate Conforms(e: BehaviorEvent) {
    e.eventType.Some? && ScoreInRange(e.score)
  }

  function MakeAdmin(email: string, name: string, passwordHash: string, isActive: Field<bool>): Admin {
    Admin(email, name, passwordHash, isActive.Or(true))
  }

  function MakeCamera(classroomId: string, name: string, streamUrl: string, isActive: Field<bool>): Camera {
    Camera(classroomId, name, streamUrl, isActive.Or(true))
  }

  function MakeClassroom(name: string, grade: Field<Option<string>>, timetable: Field<Option<Timetable>>): Classroom {
    Classroom(name, grade.Or(None), timetable.Or(Some(map[])))
  }

  function MakeStudent(firstName: string, lastName: string, classroomId: string, rollNumber: Field<Option<string>>): Student {
    Student(firstName, lastName, classroomId, rollNumber.Or(None))
  }

  function MakeTeacher(firstName: string, lastName: string, subject: Field<Option<string>>): Teacher {
    Teacher(firstName, lastName, subject.Or(None))
  }

  /** `level` is free text: any string is accepted, "info" when omitted. */
  function MakeNotification(title: string, message: string, level: Field<string>): (n: Notification)
    ensures level.Given? ==> n.level == level.value
    ensures level.Omitted? ==> n.level == "info"
  {
    Notification(title, message, level.Or("info"))
  }

  /** Building a `BehaviorEvent` from a request body: `event_type` is the one
      required field and a present score outside [0, 1] is rejected. */
  function ValidateEvent(
    studentId: Field<Option<string>>,
    teacherId: Field<Option<string>>,
    classroomId: Field<Option<string>>,
    eventType: Field<string>,
    score: Field<Option<real>>,
    notes: Field<Option<string>>): (r: Result<BehaviorEvent>)
    ensures r.Ok? <==> eventType.Given? && ScoreInRange(score.Or(None))
    ensures r.Err? ==> r.error == Unprocessable
    ensures r.Ok? ==> Conforms(r.value)
    ensures r.Ok? ==> r.value.eventType == Some(eventType.value) && r.value.score == score.Or(None)
    ensures r.Ok? ==> r.value.studentId == studentId.Or(None) && r.value.teacherId == teacherId.Or(None)
    ensures r.Ok? ==> r.value.classroomId == classroomId.Or(None) && r.value.notes == notes.Or(None)
  {
    match eventType
    case Omitted => Err(Unprocessable)
    case Given(t) =>
      var s := score.Or(None);
      if s.Some? && !(0.0 <= s.value && s.value <= 1.0) then Err(Unprocessable)
      else Ok(BehaviorEvent(studentId.Or(None), teacherId.Or(None), classroomId.Or(None), Some(t), s, notes.Or(None)))
  }

  /** Every conforming event is accepted when all of its fields are sent,
      and comes back unchanged. */
  lemma ValidateConforming(e: BehaviorEvent)
    requires Conforms(e)
    ensures ValidateEvent(Given(e.studentId), Given(e.teacherId), Given(e.classroomId),
                          Given(e.eventType.value), Given(e.score), Given(e.notes)) == Ok(e)
  {
  }

  /** The defaults schemas.py declares for omitted fields. */
  lemma SchemaDefaults(email: string, name: string, hash: string, room: string, url: string, first: string, last: string)
    ensures MakeAdmin(email, name, hash, Omitted).isActive
    ensures MakeCamera(room, name, url, Omitted).isActive
    ensures MakeClassroom(name, Omitted, Omitted) == Classroom(name, None, Some(map[]))
    ensures MakeStudent(first, last, room, Omitted).rollNumber == None
    ensures MakeTeacher(first, last, Omitted).subject == None
    ensures MakeNotification(name, url, Omitted).level == "info"
  {
  }
}

=== FILE: search.dfy ===
/** Student and teacher search (main.py:227-258). The `name` parameter is
    split on whitespace; one word must occur in the first OR the last name,
    several words put the first word on the first name AND the last word on
    the last name. A `$regex` with option "i" is modelled as case-insensitive
    substring containment, which is what it means for a word free of regex
    metacharacters. */
module Search {
  import opened Base
  import opened Store
  import opened Schemas

  /** The cursor limit on both listings. */
  const MaxResults: nat := 50

  /** Python's `str.isspace`: the characters `str.split()` splits on. */
  predicate IsSpace(c: char) {
    || c == ' ' || '\t' <= c <= '\r' || '\U{1C}' <= c <= '\U{1F}'
    || c == '\U{85}' || c == '\U{A0}' || c == '\U{1680}'
    || '\U{2000}' <= c <= '\U{200A}' || c == '\U{2028}' || c == '\U{2029}'
    || c == '\U{202F}' || c == '\U{205F}' || c == '\U{3000}'
  }

  predicate AllSpace(s: string) {
    forall i :: 0 <= i < |s| ==> IsSpace(s[i])
  }

  /** A word: non-empty, with no whitespace in it. */
  predicate IsWord(w: string) {
    |w| > 0 && forall i :: 0 <= i < |w| ==> !IsSpace(w[i])
  }

  /** Length of the leading run of non-whitespace characters. */
  function WordLength(s: string): (n: nat)
    ensures n <= |s|
    ensures forall i :: 0 <= i < n ==> !IsSpace(s[i])
    ensures n < |s| ==> IsSpace(s[n])
  {
    if |s| == 0 || IsSpace(s[0]) then 0 else 1 + WordLength(s[1..])
  }

  /** `s.strip().split()`: the maximal runs of non-whitespace, in order. */
  function Split(s: string): (parts: seq<string>)
    ensures forall i :: 0 <= i < |parts| ==> IsWord(parts[i])
    ensures |parts| == 0 <==> AllSpace(s)
    decreases |s|
  {
    if |s| == 0 then []
    else if IsSpace(s[0]) then Split(s[1..])
    else
      var n := WordLength(s);
      [s[..n]] + Split(s[n..])
  }

  lemma SplitWord(w: string)
    requires IsWord(w)
    ensures Split(w) == [w]
  {
    assert WordLength(w) == |w|;
    assert w[..|w|] == w;
    assert w[|w|..] == [];
  }

  /** A word followed by whitespace splits off as the first part. */
  lemma {:induction false} SplitWordThenSpace(w: string, rest: string)
    requires IsWord(w) && |rest| > 0 && IsSpace(rest[0])
    ensures Split(w + rest) == [w] + Split(rest)
  {
    var s := w + rest;
    assert WordLength(s) == |w| by {
      assert forall i :: 0 <= i < |w| ==> s[i] == w[i];
      assert s[|w|] == rest[0];
    }
    assert s[..|w|] == w;
    assert s[|w|..] == rest;
  }

  /** The characters of `s` that are not whitespace, in order. */
  function NonSpace(s: string): string
    decreases |s|
  {
    if |s| == 0 then ""
    else (if IsSpace(s[0]) then "" else [s[0]]) + NonSpace(s[1..])
  }

  /** The number of positions where a word begins: a non-whitespace
      character at the start of `s` (when `afterSpace`) or after whitespace. */
  function WordStarts(s: string, afterSpace: bool): nat
    decreases |s|
  {
    if |s| == 0 then 0
    else if IsSpace(s[0]) then WordStarts(s[1..], true)
    else (if afterSpace then 1 else 0) + WordStarts(s[1..], false)
  }

  function Concat(parts: seq<string>): string
    decreases |parts|
  {
    if |parts| == 0 then "" else parts[0] + Concat(parts[1..])
  }

  /** `" ".join(words)`. */
  function Join(words: seq<string>): string
    decreases |words|
  {
    if |words| == 0 then ""
    else if |words| == 1 then words[0]
    else words[0] + " " + Join(words[1..])
  }

  /** The parts of a split are the name's non-whitespace characters, cut at
      each place where a word begins: together they spell the name without
      its whitespace, and there is one part per word start. */
  lemma {:induction false} SplitContents(s: string)
    ensures Concat(Split(s)) == NonSpace(s)
    ensures |Split(s)| == WordStarts(s, true)
    decreases |s|
  {
    if |s| > 0 {
      if IsSpace(s[0]) {
        SplitContents(s[1..]);
      } else {
        var n := WordLength(s);
        SplitContents(s[n..]);
        NonSpacePrefix(s, n);
        StartsInsideWord(s, n, true);
        assert WordStarts(s[n..], false) == WordStarts(s[n..], true);
        assert Split(s)[1..] == Split(s[n..]);
      }
    }
  }

  lemma {:induction false} NonSpacePrefix(s: string, n: nat)
    requires n <= |s|
    requires forall i :: 0 <= i < n ==> !IsSpace(s[i])
    ensures NonSpace(s) == s[..n] + NonSpace(s[n..])
    decreases n
  {
    if n > 0 {
      var t := s[1..];
      NonSpacePrefix(t, n - 1);
      assert NonSpace(s) == [s[0]] + NonSpace(t);
      assert t[n - 1..] == s[n..];
      assert s[..n] == [s[0]] + t[..n - 1];
    }
  }

  lemma {:induction false} StartsInsideWord(s: string, n: nat, afterSpace: bool)
    requires 1 <= n <= |s|
    requires forall i :: 0 <= i < n ==> !IsSpace(s[i])
    ensures WordStarts(s, afterSpace) == (if afterSpace then 1 else 0) + WordStarts(s[n..], false)
    decreases n
  {
    if n > 1 {
      StartsInsideWord(s[1..], n - 1, false);
      assert s[1..][n - 1..] == s[n..];
    }
  }

  lemma JoinStep(words: seq<string>)
    requires |words| > 1
    ensures Join(words) == words[0] + (" " + Join(words[1..]))
  {
  }

  /** Joining words with single spaces and splitting again gives the words back. */
  lemma {:induction false} SplitJoin(words: seq<string>)
    requires forall i :: 0 <= i < |words| ==> IsWord(words[i])
    ensures Split(Join(words)) == words
    decreases |words|
  {
    if |words| == 1 {
      SplitWord(words[0]);
    } else if |words| > 1 {
      var tail := " " + Join(words[1..]);
      JoinStep(words);
      SplitJoin(words[1..]);
      SplitAfterSpace(" ", Join(words[1..]));
      assert tail[0] == ' ';
      SplitWordThen(words[0], tail);
    }
  }

  /** `seps[0] + parts[0] + seps[1] + … + parts[k-1] + seps[k]`: words laid
      between separators. */
  function Weave(seps: seq<string>, parts: seq<string>): string
    requires |seps| == |parts| + 1
    decreases |parts|
  {
    if |parts| == 0 then seps[0] else seps[0] + parts[0] + Weave(seps[1..], parts[1..])
  }

  /** The separators Python's `split()` rule places around the parts: every
      one is whitespace, the inner ones are non-empty, and weaving them with
      the parts rebuilds the name. */
  predicate SeparatesAs(s: string, seps: seq<string>, parts: seq<string>) {
    && |seps| == |parts| + 1
    && (forall i :: 0 <= i < |seps| ==> AllSpace(seps[i]))
    && (forall i :: 0 < i < |seps| - 1 ==> |seps[i]| > 0)
    && s == Weave(seps, parts)
  }

  lemma WeavePrepend(c: string, r: seq<string>, parts: seq<string>)
    requires |r| == |parts| + 1
    ensures Weave([c + r[0]] + r[1..], parts) == c + Weave(r, parts)
  {
    assert ([c + r[0]] + r[1..])[1..] == r[1..];
  }

  lemma AllSpaceCons(c: char, w: string)
    requires IsSpace(c) && AllSpace(w)
    ensures AllSpace([c] + w)
  {
    forall i | 0 <= i < |[c] + w|
      ensures IsSpace(([c] + w)[i])
    {
      if i > 0 {
        assert ([c] + w)[i] == w[i - 1];
      }
    }
  }

  /** A leading whitespace character joins the first separator. */
  lemma SpaceStep(s: string, r: seq<string>, parts: seq<string>)
    requires |s| > 0 && IsSpace(s[0])
    requires SeparatesAs(s[1..], r, parts)
    ensures SeparatesAs(s, [[s[0]] + r[0]] + r[1..], parts)
  {
    var seps := [[s[0]] + r[0]] + r[1..];
    AllSpaceCons(s[0], r[0]);
    forall i | 0 <= i < |seps|
      ensures AllSpace(seps[i])
    {
      if i > 0 {
        assert seps[i] == r[i];
      }
    }
    forall i | 0 < i < |seps| - 1
      ensures |seps[i]| > 0
    {
      assert seps[i] == r[i];
    }
    WeavePrepend([s[0]], r, parts);
    assert s == [s[0]] + s[1..];
  }

  /** A leading word becomes the first part, after an empty separator. */
  lemma WordStep(s: string, n: nat, r: seq<string>, parts: seq<string>)
    requires 0 < n <= |s|
    requires SeparatesAs(s[n..], r, parts)
    requires |parts| > 0 ==> |r[0]| > 0
    ensures SeparatesAs(s, [""] + r, [s[..n]] + parts)
  {
    var seps := [""] + r;
    forall i | 0 <= i < |seps|
      ensures AllSpace(seps[i])
    {
      if i > 0 {
        assert seps[i] == r[i - 1];
      }
    }
    forall i | 0 < i < |seps| - 1
      ensures |seps[i]| > 0
    {
      assert seps[i] == r[i - 1];
    }
    WeaveWord(s[..n], r, parts);
    assert s == s[..n] + s[n..];
  }

  /** The whitespace runs around the parts of `Split(s)`. */
  function Separators(s: string): (seps: seq<string>)
    ensures SeparatesAs(s, seps, Split(s))
    ensures |s| > 0 && IsSpace(s[0]) ==> |seps[0]| > 0
    decreases |s|
  {
    if |s| == 0 then [""]
    else if IsSpace(s[0]) then
      var r := Separators(s[1..]);
      SpaceStep(s, r, Split(s[1..]));
      [[s[0]] + r[0]] + r[1..]
    else
      var n := WordLength(s);
      var r := Separators(s[n..]);
      assert |Split(s[n..])| > 0 ==> n < |s| && s[n..][0] == s[n];
      WordStep(s, n, r, Split(s[n..]));
      [""] + r
  }

  lemma WeaveWord(w: string, r: seq<string>, parts: seq<string>)
    requires |r| == |parts| + 1
    ensures Weave([""] + r, [w] + parts) == w + Weave(r, parts)
  {
    var seps := [""] + r;
    var ps := [w] + parts;
    assert seps[1..] == r && ps[1..] == parts;
    assert Weave(seps, ps) == seps[0] + ps[0] + Weave(r, parts);
    assert seps[0] + ps[0] == w;
  }

  /** Leading whitespace does not change the split. */
  lemma {:induction false} SplitAfterSpace(sp: string, rest: string)
    requires AllSpace(sp)
    ensures Split(sp + rest) == Split(rest)
    decreases |sp|
  {
    if |sp| == 0 {
      assert sp + rest == rest;
    } else {
      assert (sp + rest)[0] == sp[0];
      assert (sp + rest)[1..] == sp[1..] + rest;
      assert Split(sp + rest) == Split(sp[1..] + rest);
      SplitAfterSpace(sp[1..], rest);
    }
  }

  /** A word followed by nothing or by whitespace splits off as the first part. */
  lemma SplitWordThen(w: string, rest: string)
    requires IsWord(w) && (|rest| == 0 || IsSpace(rest[0]))
    ensures Split(w + rest) == [w] + Split(rest)
  {
    if |rest| == 0 {
      assert w + rest == w;
      SplitWord(w);
    } else {
      SplitWordThenSpace(w, rest);
    }
  }

  /** Dropping the first separator and part leaves a weave of the rest,
      which starts with whitespace unless it is empty. */
  lemma SeparatesTail(s: string, seps: seq<string>, parts: seq<string>)
    requires SeparatesAs(s, seps, parts) && |parts| > 0
    ensures var y := Weave(seps[1..], parts[1..]);
      && SeparatesAs(y, seps[1..], parts[1..])
      && s == seps[0] + (parts[0] + y)
      && (|y| == 0 || IsSpace(y[0]))
  {
    var y := Weave(seps[1..], parts[1..]);
    assert forall i :: 0 < i < |seps[1..]| - 1 ==> seps[1..][i] == seps[i + 1];
    if |parts| == 1 {
      assert y == seps[1];
    } else {
      assert y == seps[1] + parts[1] + Weave(seps[2..], parts[2..]);
      assert y[0] == seps[1][0];
    }
  }

  /** `Split(s)` is the only way to cut `s` into words separated by
      whitespace: any words that weave with whitespace separators into `s`
      are its parts. */
  lemma {:induction false} SplitUnique(s: string, seps: seq<string>, parts: seq<string>)
    requires SeparatesAs(s, seps, parts)
    requires forall i :: 0 <= i < |parts| ==> IsWord(parts[i])
    ensures parts == Split(s)
    decreases |parts|
  {
    if |parts| == 0 {
      assert s == seps[0];
    } else {
      var y := Weave(seps[1..], parts[1..]);
      SeparatesTail(s, seps, parts);
      SplitUnique(y, seps[1..], parts[1..]);
      SplitAfterSpace(seps[0], parts[0] + y);
      SplitWordThen(parts[0], y);
    }
  }

  /** Python's documented rule for `split()`: the parts are exactly the
      words that, separated by runs of whitespace, make up the name. */
  lemma SplitCharacterized(s: string, parts: seq<string>)
    ensures parts == Split(s) <==>
      (forall i :: 0 <= i < |parts| ==> IsWord(parts[i])) && exists seps :: SeparatesAs(s, seps, parts)
  {
    if parts == Split(s) {
      assert SeparatesAs(s, Separators(s), parts);
    }
    if (forall i :: 0 <= i < |parts| ==> IsWord(parts[i])) && exists seps :: SeparatesAs(s, seps, parts) {
      var seps :| SeparatesAs(s, seps, parts);
      SplitUnique(s, seps, parts);
    }
  }

  /** `w` occurs in `f` starting at position `i`. */
  predicate OccursAt(f: string, w: string, i: int) {
    0 <= i <= |f| - |w| && f[i..i + |w|] == w
  }

  /** Case-insensitive containment of `word` in `field`. */
  predicate ContainsIgnoringCase(field: string, word: string): (b: bool)
    ensures word == "" ==> b
    ensures |word| > |field| ==> !b
    ensures forall i :: OccursAt(field, word, i) ==> b
    ensures Lower(field) == Lower(word) ==> b
  {
    LowerOccurs(field, word);
    exists i :: 0 <= i <= |field| - |word| && OccursAt(Lower(field), Lower(word), i)
  }

  /** Lower-casing keeps every verbatim occurrence, and a field equal to the
      word up to case holds it at position 0. */
  lemma LowerOccurs(field: string, word: string)
    ensures forall i :: OccursAt(field, word, i) ==> OccursAt(Lower(field), Lower(word), i)
    ensures word == "" || Lower(field) == Lower(word) ==> OccursAt(Lower(field), Lower(word), 0)
  {
    forall i | OccursAt(field, word, i)
      ensures OccursAt(Lower(field), Lower(word), i)
    {
      assert forall j :: 0 <= j < |word| ==> Lower(field)[i..i + |word|][j] == Lower(word)[j];
    }
  }

  /** The name part of a query document. */
  datatype NameFilter =
    | AnyName                           // no `name`, or an empty one
    | EitherName(word: string)          // `$or` over first and last name
    | BothNames(first: string, last: string)

  /** The name filter built from the `name` parameter. A non-empty name made
      only of whitespace has no parts, so `parts[0]` raises and the request
      fails with 500. */
  function NameFilterOf(name: Option<string>): (r: Result<NameFilter>)
    ensures r.Err? <==> name.Some? && name.value != "" && AllSpace(name.value)
    ensures r.Err? ==> r.error == ServerError
    ensures name.None? || name.value == "" ==> r == Ok(AnyName)
  {
    if name.None? || name.value == "" then Ok(AnyName)
    else
      var parts := Split(name.value);
      if |parts| == 1 then Ok(EitherName(parts[0]))
      else if |parts| == 0 then Err(ServerError)
      else Ok(BothNames(parts[0], parts[|parts| - 1]))
  }

  /** Whether a person passes a name filter. No filter passes everyone, and a
      person whose names are the search words themselves, in any case,
      always passes. */
  predicate NameMatches(f: NameFilter, firstName: string, lastName: string): (b: bool)
    ensures f.AnyName? ==> b
    ensures f.EitherName? && (Lower(firstName) == Lower(f.word) || Lower(lastName) == Lower(f.word)) ==> b
    ensures f.BothNames? && Lower(firstName) == Lower(f.first) && Lower(lastName) == Lower(f.last) ==> b
  {
    match f
    case AnyName => true
    case EitherName(w) => ContainsIgnoringCase(firstName, w) || ContainsIgnoringCase(lastName, w)
    case BothNames(a, b) => ContainsIgnoringCase(firstName, a) && ContainsIgnoringCase(lastName, b)
  }

  /** The student query: a name filter and an optional exact classroom. */
  datatype StudentQuery = StudentQuery(name: NameFilter, classroom: Option<string>)

  /** An empty `classroom_id` is falsy and adds no condition. */
  function StudentQueryOf(name: Option<string>, classroomId: Option<string>): (r: Result<StudentQuery>)
    ensures r.Ok? <==> NameFilterOf(name).Ok?
    ensures r.Ok? ==> r.value.name == NameFilterOf(name).value
    ensures r.Ok? ==> (r.value.classroom.Some? <==> classroomId.Some? && classroomId.value != "")
    ensures r.Ok? && r.value.classroom.Some? ==> r.value.classroom == classroomId
  {
    match NameFilterOf(name)
    case Err(e) => Err(e)
    case Ok(f) =>
      Ok(StudentQuery(f, if classroomId.Some? && classroomId.value != "" then classroomId else None))
  }

  predicate StudentMatches(q: StudentQuery, s: Student) {
    && NameMatches(q.name, s.firstName, s.lastName)
    && (q.classroom.Some? ==> s.classroomId == q.classroom.value)
  }

  function StudentSelector(q: StudentQuery): Doc<Student> -> bool {
    (d: Doc<Student>) => StudentMatches(q, d.body)
  }

  function TeacherSelector(f: NameFilter): Doc<Teacher> -> bool {
    (d: Doc<Teacher>) => NameMatches(f, d.body.firstName, d.body.lastName)
  }

  /** `search_students`: the first 50 matching students in storage order. */
  method SearchStudents(students: seq<Doc<Student>>, name: Option<string>, classroomId: Option<string>)
    returns (r: Result<seq<Doc<Student>>>)
    ensures r.Err? <==> name.Some? && name.value != "" && AllSpace(name.value)
    ensures r.Ok? ==> |r.value| <= MaxResults
    ensures r.Ok? ==> forall d :: d in r.value ==> d in students && StudentMatches(StudentQueryOf(name, classroomId).value, d.body)
    ensures r.Ok? ==> r.value == Take(Filter(students, StudentSelector(StudentQueryOf(name, classroomId).value)), MaxResults)
  {
    match StudentQueryOf(name, classroomId)
    case Err(e) =>
      r := Err(e);
    case Ok(q) =>
      var found := FindLimited(students, StudentSelector(q), MaxResults);
      r := Ok(found);
  }

  /** `list_teachers`: the same name rules, no classroom filter. */
  method ListTeachers(teachers: seq<Doc<Teacher>>, name: Option<string>)
    returns (r: Result<seq<Doc<Teacher>>>)
    ensures r.Err? <==> name.Some? && name.value != "" && AllSpace(name.value)
    ensures r.Ok? ==> |r.value| <= MaxResults
    ensures r.Ok? ==> forall d :: d in r.value ==> d in teachers && NameMatches(NameFilterOf(name).value, d.body.firstName, d.body.lastName)
    ensures r.Ok? ==> r.value == Take(Filter(teachers, TeacherSelector(NameFilterOf(name).value)), MaxResults)
  {
    match NameFilterOf(name)
    case Err(e) =>
      r := Err(e);
    case Ok(f) =>
      var found := FindLimited(teachers, TeacherSelector(f), MaxResults);
      r := Ok(found);
  }

  /** One word: a person matches when either name contains it. */
  lemma OneWordRule(name: string, first: string, last: string)
    requires |Split(name)| == 1
    ensures NameFilterOf(Some(name)).Ok?
    ensures var w := Split(name)[0];
      NameMatches(NameFilterOf(Some(name)).value, first, last) <==>
      (ContainsIgnoringCase(first, w) || ContainsIgnoringCase(last, w))
  {
  }

  /** Several words: the first name must contain the first word and the last
      name the last word; the words in between play no part. */
  lemma SeveralWordsRule(name: string, first: string, last: string)
    requires |Split(name)| >= 2
    ensures NameFilterOf(Some(name)).Ok?
    ensures var parts := Split(name);
      NameMatches(NameFilterOf(Some(name)).value, first, last) <==>
      (ContainsIgnoringCase(first, parts[0]) && ContainsIgnoringCase(last, parts[|parts| - 1]))
  {
    SeveralWordsFilter(name);
  }

  lemma MiddleWordsIgnored(a: string, b: string)
    requires |Split(a)| >= 2 && |Split(b)| >= 2
    requires Split(a)[0] == Split(b)[0]
    requires Split(a)[|Split(a)| - 1] == Split(b)[|Split(b)| - 1]
    ensures NameFilterOf(Some(a)) == NameFilterOf(Some(b))
  {
    SeveralWordsFilter(a);
    SeveralWordsFilter(b);
  }

  /** A name of several words builds the filter on its first and last word. */
  lemma SeveralWordsFilter(name: string)
    requires |Split(name)| >= 2
    ensures var parts := Split(name);
      NameFilterOf(Some(name)) == Ok(BothNames(parts[0], parts[|parts| - 1]))
  {
    assert |name| > 0;
  }

  /** The classroom condition is exact equality, conjoined with the name rule. */
  lemma ClassroomIsExact(name: Option<string>, room: string, s: Student)
    requires room != ""
    requires NameFilterOf(name).Ok?
    ensures StudentMatches(StudentQueryOf(name, Some(room)).value, s)
        <==> s.classroomId == room && NameMatches(NameFilterOf(name).value, s.firstName, s.lastName)
  {
  }

  /** "first last" splits into its two words. */
  lemma SplitTwoWords(first: string, last: string)
    requires IsWord(first) && IsWord(last)
    ensures Split(first + " " + last) == [first, last]
  {
    var rest := " " + last;
    assert first + " " + last == first + rest;
    SplitWordThenSpace(first, rest);
    assert rest[1..] == last;
    SplitWord(last);
  }

  /** The query "John Smith" shape: two words need the first in the first name
      and the second in the last name, ignoring case. */
  lemma TwoWordsExample(w1: string, w2: string, first: string, last: string)
    requires IsWord(w1) && IsWord(w2)
    ensures NameFilterOf(Some(w1 + " " + w2)) == Ok(BothNames(w1, w2))
    ensures NameMatches(NameFilterOf(Some(w1 + " " + w2)).value, first, last) <==>
      (ContainsIgnoringCase(first, w1) && ContainsIgnoringCase(last, w2))
  {
    SplitTwoWords(w1, w2);
  }

  /** The query "John" shape: a single word may occur in either name. */
  lemma OneWordExample(w: string, first: string, last: string)
    requires IsWord(w)
    ensures NameFilterOf(Some(w)) == Ok(EitherName(w))
    ensures NameMatches(NameFilterOf(Some(w)).value, first, last) <==>
      (ContainsIgnoringCase(first, w) || ContainsIgnoringCase(last, w))
  {
    SplitWord(w);
  }

  /** Matching ignores the case of the search word: "John" and "john" select
      the same people. */
  lemma CaseOfWordIrrelevant(field: string, w: string, v: string)
    requires Lower(w) == Lower(v)
    ensures ContainsIgnoringCase(field, w) <==> ContainsIgnoringCase(field, v)
  {
  }
}

=== FILE: session.dfy ===
/** Bearer-token sessions (main.py:75-110): validating the `Authorization`
    header, issuing a token on login and revoking it on logout. The password
    digest (SHA-256 in hex) is the parameter `hash`; the random token a login
    issues (`uuid4().hex`) is the parameter `issued`. */
module Session {
  import opened Base
  import opened Ids
  import opened Schemas
  import opened Store

  const BearerPrefix: string := "Bearer "

  /** The token a header carries: the text after the first space, provided the
      header starts with the case-sensitive "Bearer ". A missing or empty
      header carries none. */
  function BearerToken(header: Option<string>): (r: Option<string>)
    ensures r.Some? <==> header.Some? && |BearerPrefix| <= |header.value| && header.value[..|BearerPrefix|] == BearerPrefix
    ensures r.Some? ==> header.value == BearerPrefix + r.value
  {
    if header.Some? && |BearerPrefix| <= |header.value| && header.value[..|BearerPrefix|] == BearerPrefix
    then
      assert header.value == header.value[..|BearerPrefix|] + header.value[|BearerPrefix|..];
      Some(header.value[|BearerPrefix|..])
    else None
  }

  lemma BearerTokenOf(t: string)
    ensures BearerToken(Some(BearerPrefix + t)) == Some(t)
  {
    var h := BearerPrefix + t;
    assert h[..|BearerPrefix|] == BearerPrefix;
    assert h[|BearerPrefix|..] == t;
  }

  /** The header authenticates: it carries a stored token whose admin exists. */
  predicate Authenticates(db: Db, header: Option<string>) {
    var t := BearerToken(header);
    t.Some? && t.value in db.tokens && FindById(db.admins, db.tokens[t.value]).Some?
  }

  /** `get_current_admin`: the admin a request acts for, or 401. */
  function Validate(db: Db, header: Option<string>): (r: Result<Doc<AdminDoc>>)
    ensures r.Ok? <==> Authenticates(db, header)
    ensures r.Err? ==> r.error == Unauthorized
    ensures r.Ok? ==> r.value in db.admins && r.value.id == db.tokens[BearerToken(header).value]
  {
    match BearerToken(header)
    case None => Err(Unauthorized)
    case Some(t) =>
      if t !in db.tokens then Err(Unauthorized)
      else
        match FindById(db.admins, db.tokens[t])
        case None => Err(Unauthorized)
        case Some(a) => Ok(a)
  }

  datatype LoginResponse = LoginResponse(token: string, name: string, email: string)

  /** `get_admin_by_email`: the first admin document with that email. */
  function AdminByEmail(db: Db, email: string): (r: Option<Doc<AdminDoc>>)
    ensures r.Some? ==> r.value in db.admins && r.value.body.email == Some(email)
    ensures r.None? <==> forall a :: a in db.admins ==> a.body.email != Some(email)
  {
    FindFirst(db.admins, (a: Doc<AdminDoc>) => a.body.email == Some(email))
  }

  /** The credentials check: the admin looked up by email exists and its
      stored digest (possibly missing) equals the digest of the password. */
  predicate CredentialsMatch(db: Db, hash: string -> string, email: string, password: string) {
    var a := AdminByEmail(db, email);
    a.Some? && a.value.body.passwordHash == Some(hash(password))
  }

  /** What a login request leaves behind: its response and the store. */
  datatype LoginOutcome = LoginOutcome(response: Result<LoginResponse>, db: Db)

  /** The admin's name as `admin.get("name", "Admin")` reads it: the default
      when the field is missing, the stored value (possibly null) otherwise. */
  function NameOrDefault(name: Field<Option<string>>): (n: Option<string>)
    ensures name.Omitted? ==> n == Some("Admin")
    ensures name.Given? ==> n == name.value
  {
    name.Or(Some("Admin"))
  }

  /** An `Admin` record (schemas.py:19-23) once stored: every field is
      present, so login reads back the record's own name and never takes the
      null-name path. */
  function AdminDocOf(a: Admin): (d: AdminDoc)
    ensures NameOrDefault(d.name) == Some(a.name)
    ensures d.email == Some(a.email) && d.passwordHash == Some(a.passwordHash)
  {
    AdminDoc(Some(a.email), Given(Some(a.name)), Some(a.passwordHash), a.isActive)
  }

  /** A login whose credentials match and whose token is fresh stores the
      token, whether or not the response can be built. */
  predicate Issues(db: Db, hash: string -> string, email: string, password: string, issued: string) {
    CredentialsMatch(db, hash, email, password) && issued !in db.tokens
  }

  /** `login`: when the credentials match, the new token is bound to the
      admin's id and nothing else in the store changes. An `issued` value
      already in use violates the unique token index, so the insert raises
      and the request fails with 500. The token is stored before the response
      is built, so a stored null name fails the response model with 500 and
      still leaves the token behind. */
  function Login(db: Db, hash: string -> string, email: string, password: string, issued: string): (r: LoginOutcome)
    ensures r.response.Ok? <==>
      Issues(db, hash, email, password, issued) && AdminByEmail(db, email).value.body.name != Given(None)
    ensures r.response.Err? ==> r.response.error == (if CredentialsMatch(db, hash, email, password) then ServerError else Unauthorized)
    ensures r.db == if Issues(db, hash, email, password, issued)
      then db.(tokens := db.tokens[issued := AdminByEmail(db, email).value.id])
      else db
    ensures r.response.Ok? ==> var a := AdminByEmail(db, email).value;
      && r.response.value.token == issued
      && r.response.value.email == email
      && (a.body.name.Omitted? ==> r.response.value.name == "Admin")
      && (a.body.name.Given? ==> a.body.name.value == Some(r.response.value.name))
  {
    match AdminByEmail(db, email)
    case None => LoginOutcome(Err(Unauthorized), db)
    case Some(a) =>
      if a.body.passwordHash != Some(hash(password)) then LoginOutcome(Err(Unauthorized), db)
      else if issued in db.tokens then LoginOutcome(Err(ServerError), db)
      else
        var db' := db.(tokens := db.tokens[issued := a.id]);
        match NameOrDefault(a.body.name)
        case None => LoginOutcome(Err(ServerError), db')
        case Some(name) => LoginOutcome(Ok(LoginResponse(issued, name, a.body.email.GetOr(""))), db')
  }

  /** `logout`: guarded by `get_current_admin`, then deletes exactly the token
      the header carries. */
  function Logout(db: Db, header: Option<string>): (r: Result<Db>)
    ensures r.Ok? <==> Authenticates(db, header)
    ensures r.Err? ==> r.error == Unauthorized
    ensures r.Ok? ==> r.value == db.(tokens := db.tokens - {BearerToken(header).value})
  {
    match Validate(db, header)
    case Err(e) => Err(e)
    case Ok(_) => Ok(db.(tokens := db.tokens - {BearerToken(header).value}))
  }

  /** Session invariant: every token refers to an existing admin. */
  predicate TokensResolve(db: Db) {
    forall t :: t in db.tokens ==> FindById(db.admins, db.tokens[t]).Some?
  }

  /** Under the invariant, a header authenticates exactly when its token is stored. */
  lemma ValidateUnderInvariant(db: Db, header: Option<string>)
    requires TokensResolve(db)
    ensures Validate(db, header).Ok? <==> BearerToken(header).Some? && BearerToken(header).value in db.tokens
  {
  }

  /** Whatever its response, a login keeps every token resolvable. */
  lemma LoginPreservesInvariant(db: Db, hash: string -> string, email: string, password: string, issued: string)
    requires TokensResolve(db)
    ensures TokensResolve(Login(db, hash, email, password, issued).db)
  {
    var db' := Login(db, hash, email, password, issued).db;
    if !Issues(db, hash, email, password, issued) {
      return;
    }
    var a := AdminByEmail(db, email).value;
    assert db'.admins == db.admins;
    forall t | t in db'.tokens
      ensures FindById(db'.admins, db'.tokens[t]).Some?
    {
      if t == issued {
        assert FindById(db.admins, a.id).Some?;
      } else {
        assert db'.tokens[t] == db.tokens[t];
      }
    }
  }

  lemma LogoutPreservesInvariant(db: Db, header: Option<string>)
    requires TokensResolve(db)
    requires Logout(db, header).Ok?
    ensures TokensResolve(Logout(db, header).value)
  {
  }

  /** A token issued by login authenticates the admin it was issued to. */
  lemma LoginThenValidate(db: Db, hash: string -> string, email: string, password: string, issued: string)
    requires Issues(db, hash, email, password, issued)
    ensures var db' := Login(db, hash, email, password, issued).db;
      var v := Validate(db', Some(BearerPrefix + issued));
      v.Ok? && v.value.id == AdminByEmail(db, email).value.id
    ensures UniqueIds(db.admins) ==>
      Validate(Login(db, hash, email, password, issued).db, Some(BearerPrefix + issued)) == Ok(AdminByEmail(db, email).value)
  {
    var a := AdminByEmail(db, email).value;
    var db' := Login(db, hash, email, password, issued).db;
    BearerTokenOf(issued);
    assert FindById(db'.admins, a.id).Some?;
    if UniqueIds(db.admins) {
      FindByOwnId(db.admins, a);
    }
  }

  /** Logging out revokes the token: the header no longer authenticates and a
      second logout with it is refused. */
  lemma LogoutRevokes(db: Db, header: Option<string>)
    requires Logout(db, header).Ok?
    ensures Validate(Logout(db, header).value, header) == Err(Unauthorized)
    ensures Logout(Logout(db, header).value, header) == Err(Unauthorized)
  {
  }

  /** Logging out leaves every other session as it was. */
  lemma LogoutLeavesOthers(db: Db, header: Option<string>, other: Option<string>)
    requires Logout(db, header).Ok?
    requires BearerToken(other) != BearerToken(header)
    ensures Validate(Logout(db, header).value, other) == Validate(db, other)
  {
  }

  /** Logging out the token a login just issued restores the store. */
  lemma LoginLogoutRoundTrip(db: Db, hash: string -> string, email: string, password: string, issued: string)
    requires Issues(db, hash, email, password, issued)
    ensures var db' := Login(db, hash, email, password, issued).db;
      Logout(db', Some(BearerPrefix + issued)) == Ok(db)
  {
    var db' := Login(db, hash, email, password, issued).db;
    BearerTokenOf(issued);
    LoginThenValidate(db, hash, email, password, issued);
    assert db'.tokens - {issued} == db.tokens;
  }

  /** An admin stored with a null name cannot log in: the request fails with
      500, yet the token it issued is stored and authenticates. */
  lemma NullNameLeavesToken(db: Db, hash: string -> string, email: string, password: string, issued: string)
    requires Issues(db, hash, email, password, issued)
    requires AdminByEmail(db, email).value.body.name == Given(None)
    ensures Login(db, hash, email, password, issued).response == Err(ServerError)
    ensures Validate(Login(db, hash, email, password, issued).db, Some(BearerPrefix + issued)).Ok?
  {
    LoginThenValidate(db, hash, email, password, issued);
  }

  /** An `Admin` record stored as the first document with its email
      logs in with its own name and email. */
  lemma CreatedAdminLogsIn(db: Db, hash: string -> string, admin: Admin, id: ObjectId, password: string, issued: string)
    requires AdminByEmail(db, admin.email) == Some(Doc(id, AdminDocOf(admin)))
    requires admin.passwordHash == hash(password)
    requires issued !in db.tokens
    ensures Login(db, hash, admin.email, password, issued).response == Ok(LoginResponse(issued, admin.name, admin.email))
  {
  }
}

=== FILE: store.dfy ===
/** The document store, reduced to in-memory collections. Each collection is
    a sequence in storage order, so "the first match" is what `find_one`
    returns; the token collection is a map because its `token` field carries
    a unique index (main.py:57). */
module Store {
  import opened Base
  import opened Ids
  import opened Schemas

  /** A stored document: its `_id` and its fields. */
  datatype Doc<T> = Doc(id: ObjectId, body: T)

  /** An admin document as read back from the store. Reads go through
      `dict.get`, so each field may be missing. The name is read with a
      default, which tells a missing field (`Omitted`) from a stored null
      (`Given(None)`). */
  datatype AdminDoc = AdminDoc(email: Option<string>, name: Field<Option<string>>, passwordHash: Option<string>, isActive: bool)

  /** Wall-clock instants, opaque to the model. */
  type Timestamp = int

  datatype ClassroomDoc = ClassroomDoc(room: Classroom, updatedAt: Option<Timestamp>)

  datatype Db = Db(
    admins: seq<Doc<AdminDoc>>,
    tokens: map<string, ObjectId>,
    cameras: seq<Doc<Camera>>,
    classrooms: seq<Doc<ClassroomDoc>>,
    students: seq<Doc<Student>>,
    teachers: seq<Doc<Teacher>>,
    events: seq<BehaviorEvent>,
    notifications: seq<Notification>)

  /** The query `{"_id": id}`. */
  function IdIs<T>(id: ObjectId): Doc<T> -> bool {
    (d: Doc<T>) => d.id == id
  }

  /** `find_one({"_id": id})`. */
  function FindById<T>(docs: seq<Doc<T>>, id: ObjectId): (r: Option<Doc<T>>)
    ensures r.Some? ==> r.value in docs && r.value.id == id
    ensures r.None? <==> forall d :: d in docs ==> d.id != id
  {
    FindFirst(docs, IdIs(id))
  }

  /** `_id` is unique within a collection. */
  predicate UniqueIds<T>(docs: seq<Doc<T>>) {
    forall i, j :: 0 <= i < j < |docs| ==> docs[i].id != docs[j].id
  }

  /** With unique ids, looking a document up by its own id finds it. */
  lemma FindByOwnId<T>(docs: seq<Doc<T>>, d: Doc<T>)
    requires UniqueIds(docs) && d in docs
    ensures FindById(docs, d.id) == Some(d)
  {
    var r := FindById(docs, d.id).value;
    var i :| 0 <= i < |docs| && docs[i] == d;
    var j :| 0 <= j < |docs| && docs[j] == r;
    assert docs[i].id == docs[j].id;
  }
}
